=== FILE: README.md ===
# RK3588 stepper axes: a Dafny model

The system drives four open-loop stepper axes (A, B, C, D) from an RK3588
board. A small kernel driver exposes twelve GPIO lines by index. A user-space
engine keeps one record per axis: enable, direction, current and target
position in circles, a done flag (`State`), an arm flag (`Process_Flag`) and a
print-once mark. One thread per axis polls that record. Each poll retargets
the axis, writes its enable and direction lines, and then emits step pulses
on its pulse line until the target is reached or the arm flag is withdrawn.
Targets arrive from three places:

- serial telegrams such as `A:8.5$B:3`;
- console lines such as `$A:12, B:3`, plus reserved commands;
- a scripted six-waypoint sequence that a process task advances once A, B
  and C report done.

The console also controls a sysfs PWM output.

The model is split into these modules:

- `MotorDefs` (`motor_defs.dfy`): the constants and layout of `motor.h`.
- `GpioDriver` (`gpio_driver.dfy`): the driver. The pin table and its
  numbering rule, `open`/`release`, the ioctl dispatch, and the
  request/rollback loop. The driver is a class over two arrays of twelve
  booleans: line levels and requested flags.
- `Motor` (`motor.dfy`): the engine.
  - The user-space pin writer, including `gpio_toggle`'s twelve-entry shadow
    array.
  - The axis record as a class whose methods are proved against functions on
    an `Axis` value.
  - The four axes with their global targets and the waypoint cursor, proved
    against functions on a `Table` value.
- `CStrings` (`c_strings.dfy`): the C string conventions the command layers
  use. These are `strtok` splitting into maximal non-empty tokens, space
  trimming, and reading the terminator past the end.
- `Telegram` (`telegram.dfy`): the telegram scanner and the CR/LF line
  splitter. The scanner is a loop proved against a recursive definition of
  the fields it recognises; its number loop is proved against the decimal
  value of the digits it reads.
- `Pwm` (`pwm.dfy`): the duty and frequency setters over the two PWM
  statics, the sysfs writes they issue, and the status query.
- `Tasks` (`tasks.dfy`): the parts of `task.c` around the engine.
  - The thread priority table.
  - One console line: the reserved commands and the comma-separated target
    tokens with their per-axis clamps.
  - One round of the process task that gates the sequence.

Other inputs are parameters:

- Positions and parsed values are `real`.
- Mid-run cancellation is a sequence of arm-flag readings, one per pulse. This over-approximates the program: `Motor_Run_Circle` holds the axis mutex for the whole pulse loop, and the only writer of a value other than 1 (`STOP_MOTOR`) takes that mutex. Every other writer stores 1. So in the program as written every reading is 1, and the cancel path is unreachable.
- `sscanf("%f")` and `atoi` are function parameters.
- Each `system("echo ...")` is a success flag.
- Each `open()` and `gpio_request` outcome is a boolean.

## Model

| member | source | states |
|---|---|---|
| MotorDefs.PinsOf | Tir_code_RK3588/motor.h:21-42 | axis k owns enable pin 3k, direction pin 3k+1 and pulse pin 3k+2 |
| MotorDefs.PinLayoutIsAPartition | Tir_code_RK3588/motor.h:21-42 | the twelve pin indices split exactly into the four axes' triples; every pulse pin is below the toggle bound of 12; the axes' ranges do not overlap |
| MotorDefs.AxisNumbersAreTheValidIndices | Tir_code_RK3588/motor.h:16-19 | Motor_A..Motor_D are the four distinct indices 0..3 |
| MotorDefs.ControlEncoding | Tir_code_RK3588/motor.h:44-50 | Forward and Disable share 0, and Backward and Enable share 1 |
| MotorDefs.TruncToZero | Tir_code_RK3588/motor.h:84-85 | a float-to-integer conversion truncates toward zero, from either side |
| MotorDefs.ToUint16 | Tir_code_RK3588/motor.h:84-85 | a defined float-to-uint16_t conversion lands in 0..65535 and is the truncation of the value |
| MotorDefs.FractionalTargetTruncated | Tir_code_RK3588/motor.h:84-85 | a target of 10.5 reaches the axis as 10; a whole target is kept |
| GpioDriver.GpioPinsFollowFormula | RK3588_CODE/driver/Avd_gpio_driver_Third.c:48-65 | every gpio_pins entry is bank*32 + (group-1)*8 + pin for its GPIO3 pad label |
| GpioDriver.GpioPinsDistinct | RK3588_CODE/driver/Avd_gpio_driver_Third.c:48-64 | the twelve GPIO numbers are pairwise distinct |
| GpioDriver.IndicesAgreeWithMotorLayout | RK3588_CODE/driver/Avd_gpio_driver_Third.c:32-46 | each IDX_GPIO3_* macro is the table position of its pad; the pads agree with motor.h's per-axis labels; both count twelve pins |
| GpioDriver.FirstFailure | RK3588_CODE/driver/Avd_gpio_driver_Third.c:172-189 | the index of the first failed request: all before it succeeded, and it failed unless it is the length |
| GpioDriver.Device.constructor | RK3588_CODE/driver/Avd_gpio_driver_Third.c:48-65 | a fresh level array and a fresh request array, one entry per table pin |
| GpioDriver.Device.SetAll | RK3588_CODE/driver/Avd_gpio_driver_Third.c:74-150 | every line ends at the given level |
| GpioDriver.Device.Open | RK3588_CODE/driver/Avd_gpio_driver_Third.c:74-84 | device_open returns 0 with all twelve lines low |
| GpioDriver.Device.Release | RK3588_CODE/driver/Avd_gpio_driver_Third.c:86-96 | device_release returns 0 with all twelve lines low |
| GpioDriver.Device.Ioctl | RK3588_CODE/driver/Avd_gpio_driver_Third.c:98-150 | per-index on/off sets exactly that line when the index is below the count, and otherwise returns -EINVAL with no change; all-on and all-off set every line and return 0; any other command returns -ENOTTY with no change |
| GpioDriver.Device.RequestPins | RK3588_CODE/driver/Avd_gpio_driver_Third.c:172-189 | success exactly when no request fails, and then every pin is requested; on the first failure every pin up to and including it is left free, -EBUSY is returned, and later pins are not touched |
| Motor.FlippedTwice | RK3588_CODE/motor.c:73-82 | toggling the same index twice restores the shadow |
| Motor.FlippedNParity | RK3588_CODE/motor.c:73-82 | n toggles of one index leave the shadow as n mod 2 toggles do |
| Motor.RunLineIsDistance | RK3588_CODE/motor.c:161-167 | after retargeting, the signed distance to go is the absolute distance, never negative |
| Motor.RetargetChoosesDirection | RK3588_CODE/motor.c:135-154 | equal positions give Disable and State=1; otherwise DIR is Forward exactly when current < target and EN is Enable; the EN argument never survives; position and flags are kept |
| Motor.RetargetIdempotent | RK3588_CODE/motor.c:135-154 | retargeting twice to the same target is retargeting once |
| Motor.PulseCount | RK3588_CODE/motor.c:175-176 | the pulse count n of a distance d satisfies n*0.002 <= d < (n+1)*0.002 |
| Motor.FirstCancel | RK3588_CODE/motor.c:182-192 | the first pulse index at which the arm flag is seen other than 1, or the full count if none is |
| Motor.PollUnarmed | RK3588_CODE/motor.c:161-174 | with Process_Flag 0, a poll emits nothing, moves nothing, keeps the flag at 0, and sets only the print-once mark |
| Motor.PollAtTarget | RK3588_CODE/motor.c:161-199 | an armed axis already at its target is marked done with EN=Disable, emits nothing and stays armed |
| Motor.PollRunsToTarget | RK3588_CODE/motor.c:164-198 | an armed, unfinished, uncancelled run emits (int)(\|target-current\|/0.002) pulses and ends at the target with State=1, Process_Flag=0 and print-once=0 |
| Motor.PollCancelled | RK3588_CODE/motor.c:182-192 | a flag seen withdrawn at pulse index c means c+1 pulses, a move of c*0.002 towards the target, State still 0, and the observed flag value kept; a path the program's locking makes unreachable, since every reading is then 1 |
| Motor.UnarmedPollIsFixpoint | RK3588_CODE/motor.c:161-174 | after an unarmed poll, further polls with the same target change nothing and emit nothing |
| Motor.FinishedRunSettles | RK3588_CODE/motor.c:161-199 | a completed run is followed by one poll that disables the axis and sets print-once; every later poll changes nothing |
| Motor.PollKeepsDrive | RK3588_CODE/motor.c:161-199 | a poll keeps the EN and DIR that retargeting chose, the pin numbers, and the target it was given |
| Motor.PollArmedDone | RK3588_CODE/motor.c:169-199 | an armed axis whose State is already 1 is only retargeted: no pulse and no move, even when it is away from the target |
| Motor.StateStaysBinary | Tir_code_RK3588/motor.h:52-65 | State stays a 0/1 flag through Motor_Init, retargeting, a poll, Begin_Motor_flag and STOP_MOTOR |
| Motor.PulsesPerCircle | RK3588_CODE/motor.c:175-176 | eight circles are 4000 pulses, and one circle is 500 |
| Motor.TargetSetTouchesOneAxis | RK3588_CODE/motor.c:234-274 | a valid index sets that axis's global and record target and clears its State, keeping its flag, position and enable; other axes are unchanged; a bad index changes nothing |
| Motor.ScriptStepMeaning | RK3588_CODE/motor.c:275-342 | a call before the sixth installs the next waypoint on all four axes, clears every State and advances the cursor by one; later calls change nothing |
| Motor.ScriptRunsInOrder | RK3588_CODE/motor.c:275-342 | from cursor 0, n calls leave the cursor at min(n, 6) with the targets of the last waypoint reached |
| Motor.ScriptEndsAtHome | RK3588_CODE/motor.c:322-342 | after all six waypoints every target is 0, and further calls change nothing |
| Motor.TableStatesStayBinary | RK3588_CODE/motor.c:234-342 | Set_Motor_Target, arming every axis and a My_Motor_process step keep every axis's State a 0/1 flag |
| Motor.Gpio.constructor | RK3588_CODE/motor.c:9-17 | the device starts closed, with the toggle shadow all low and no toggles recorded |
| Motor.Gpio.Open | RK3588_CODE/motor.c:32-42 | the handle is open exactly when open() succeeds, returning 0; a successful open runs the driver's device_open, so all twelve lines are low; a failed one returns -1 and changes no line |
| Motor.Gpio.Close | RK3588_CODE/motor.c:44-52 | the handle ends closed; closing an open handle runs the driver's device_release, so all twelve lines are low; closing a closed handle changes no line |
| Motor.Gpio.Write | RK3588_CODE/motor.c:54-70 | a closed handle returns -1 with no change; an open one issues SET_GPIO_ON/OFF, returning 0 and setting that line when the index is valid, and -1 otherwise |
| Motor.Gpio.Toggle | RK3588_CODE/motor.c:73-82 | an index of 12 or more returns -1 and changes no level or shadow; a valid one flips exactly its shadow entry and writes the new value to that line |
| Motor.Gpio.Pulses | RK3588_CODE/motor.c:175-199 | the pulse loop stops at the first cancelling reading; it toggles the pulse pin once per emitted pulse, counting the pulse sent before the reading, and leaves every other line alone |
| Motor.Motor.constructor | RK3588_CODE/motor.c:9-17 | a global record starts all zero |
| Motor.Motor.Init | RK3588_CODE/motor.c:85-105 | the record is EN=Disable, DIR=Forward, Current=Target=0, State=Process_Flag=print-once=0 with the given pins; with the device open its three lines are driven low and no other line changes |
| Motor.Motor.Reset | RK3588_CODE/motor.c:87-96 | the field assignments of Motor_Init give the initial record |
| Motor.Motor.SetEnDir | RK3588_CODE/motor.c:128-132 | with the device open, the direction line shows DIR and the enable line shows EN, and nothing else changes |
| Motor.Motor.SetTargetAndDir | RK3588_CODE/motor.c:135-154 | the record becomes the retargeted record (see RetargetChoosesDirection) |
| Motor.Motor.Run | RK3588_CODE/motor.c:156-202 | one poll: the new record, the pulse-pin toggles and the shadow are those of the poll function that the Poll* lemmas characterise; with the device open the direction and enable lines show the record's DIR and EN as Set_EN_DIR wrote them; no line outside the axis's three changes |
| Motor.Motor.Drive | RK3588_CODE/motor.c:164-199 | after retargeting: the print-once note, the pulse train with cancellation, or nothing |
| Motor.Motor.Stop | RK3588_CODE/motor.c:205-212 | only Process_Flag=0 and EN=Disable change in the record, and the enable line is driven low |
| Motor.Motor.Begin | RK3588_CODE/motor.c:215-221 | only Process_Flag=1 and State=0 change |
| Motor.Axes.constructor | RK3588_CODE/motor.c:9-17 | zero targets, zero records, cursor 0 and the device closed |
| Motor.Axes.SetMotorTarget | RK3588_CODE/motor.c:234-274 | the table changes as TargetSet says (see TargetSetTouchesOneAxis) |
| Motor.Axes.MyMotorProcess | RK3588_CODE/motor.c:275-342 | the table and cursor change as one script step (see ScriptStepMeaning) |
| Motor.Axes.SetWaypoint | RK3588_CODE/motor.c:278-338 | the four targets of one waypoint are set in the order A, B, C, D |
| Motor.Axes.Arm | RK3588_CODE/motor.c:215-221 | Begin_Motor_flag on one axis of the table, nothing else |
| Motor.Axes.ArmAll | Tir_code_RK3588/usart_me_Recive.c:22-29 | every axis gets Process_Flag=1 and State=0, with no target changed |
| Motor.Axes.PollAxis | Tir_code_RK3588/task.c:239-251 | one motor-task iteration polls axis k with its global target truncated to uint16_t and the enable argument Enable; the other axes and all targets are unchanged. The pulse line is toggled exactly the poll's pulse count, and the shadow flips accordingly. With the device open the pulse line shows the shadow and the DIR and EN lines show the polled record. No line outside the axis's three changes, so an axis on its own pin triple leaves every other axis's lines alone |
| Motor.Axes.IoInit | RK3588_CODE/motor.c:108-125 | a failed open returns -1 and changes nothing; otherwise it returns 0, each axis is initialised on its own pin triple, all twelve lines are low, and the targets are kept |
| Motor.Axes.Cleanup | RK3588_CODE/motor.c:344-360 | every axis is stopped and the targets are kept; the device ends closed; if it was open every line is low afterwards, and otherwise no line changes |
| CStrings.TokenLen | Tir_code_RK3588/usart_me_Recive.c:81-95 | the longest delimiter-free prefix: no delimiter before it, a delimiter or the end at it |
| CStrings.TokensAreNonEmptyRuns | Tir_code_RK3588/usart_me_Recive.c:81-95 | strtok never yields an empty token, nor one containing a delimiter |
| CStrings.TokensDrawFrom | Tir_code_RK3588/task.c:526-625 | every character of every token comes from the input |
| CStrings.TokensOfCString | Tir_code_RK3588/usart_me_Recive.c:81-95 | the tokens of a NUL-free string are NUL-free |
| CStrings.TokensOfRun | Tir_code_RK3588/task.c:526-625 | a non-empty delimiter-free string is one token |
| CStrings.TokensOfJoin | Tir_code_RK3588/usart_me_Recive.c:81-95 | a string split at a delimiter yields the tokens of the first part, then those of the second |
| CStrings.LeadingSpaces | Tir_code_RK3588/task.c:529-530 | the count of leading spaces: all spaces before it, a non-space at it |
| CStrings.TrailingSpaces | Tir_code_RK3588/task.c:531-533 | the count of trailing spaces: all spaces after the cut, a non-space just before it |
| CStrings.TrimUnpadded | Tir_code_RK3588/task.c:529-533 | a string that neither starts nor ends with a space is its own trim |
| CStrings.TrimLeading | Tir_code_RK3588/task.c:529-530 | a leading space is dropped by trimming |
| CStrings.TrimMeaning | Tir_code_RK3588/task.c:529-533 | the trim is a contiguous slice; only spaces are removed around it; and it neither starts nor ends with a space |
| Telegram.NoPointMeaning | Tir_code_RK3588/usart_me_Recive.c:45-50 | without a '.', every character is an integer digit and there is no fraction |
| Telegram.PointMeaning | Tir_code_RK3588/usart_me_Recive.c:45-55 | with a first '.', the integer part is what precedes it, and the fraction is every digit after it, with later points dropped |
| Telegram.FracValueBound | Tir_code_RK3588/usart_me_Recive.c:51-55 | the fraction digits add at most 1 - 10^-k, so they never reach a whole unit |
| Telegram.NumberFloor | Tir_code_RK3588/usart_me_Recive.c:45-57 | the integer part of the scanned value is exactly the integer digits read as a decimal |
| Telegram.NumberExamplePoint | Tir_code_RK3588/usart_me_Recive.c:45-57 | "8.5" scans as 8.5 |
| Telegram.NumberExampleSecondPoint | Tir_code_RK3588/usart_me_Recive.c:45-57 | a later '.' is ignored: "1.2.5" scans as 1.25 |
| Telegram.NumberExampleDigits | Tir_code_RK3588/usart_me_Recive.c:42-57 | no digits scan as 0, and "3" scans as 3 |
| Telegram.ScanStep | Tir_code_RK3588/usart_me_Recive.c:47-55 | a '.' leaves the value unchanged; a digit before the point gives val*10+d; a digit after it adds d times the next power of a tenth |
| Telegram.NumberLen | Tir_code_RK3588/usart_me_Recive.c:45-57 | the number loop consumes exactly the maximal run of digits and points, stopping at the terminator |
| Telegram.NumberLenOfRun | Tir_code_RK3588/usart_me_Recive.c:45-57 | that run length is the only n with n number characters followed by a non-number |
| Telegram.FieldStepAt | Tir_code_RK3588/usart_me_Recive.c:32-71 | a field found at a position (after an optional '$') is recognised with its axis, number and arming, and scanning resumes after the number |
| Telegram.SkipStepAt | Tir_code_RK3588/usart_me_Recive.c:32-75 | a position that starts no field is passed over |
| Telegram.NoDollarNoArming | Tir_code_RK3588/usart_me_Recive.c:32-36 | a line without '$' yields only unarmed fields |
| Telegram.FieldsNameAxes | Tir_code_RK3588/usart_me_Recive.c:38 | every recognised field names one of the four axes |
| Telegram.SkipRules | Tir_code_RK3588/usart_me_Recive.c:33-75 | a character that starts no field is skipped alone; a '$' not followed by a field also skips the character after it |
| Telegram.FieldExampleMixed | Tir_code_RK3588/usart_me_Recive.c:30-76 | "A:8.5$B:3" yields A=8.5 unarmed, then B=3 armed |
| Telegram.DigitFieldAtEnd | Tir_code_RK3588/usart_me_Recive.c:38-71 | a one-digit field that ends the line is the last field, worth that digit |
| Telegram.FieldExampleNoDigits | Tir_code_RK3588/usart_me_Recive.c:42-57 | "C:" sets C to 0 |
| Telegram.FieldExampleDoubleDollar | Tir_code_RK3588/usart_me_Recive.c:33-75 | in "$$A:5" the first '$' swallows the second, so A=5 is not armed |
| Telegram.FieldExampleUnknownAxis | Tir_code_RK3588/usart_me_Recive.c:38 | "E:1" yields no field |
| Telegram.DollarArmsAll | Tir_code_RK3588/usart_me_Recive.c:22-29 | a bare "$" arms every axis (Process_Flag=1, State=0) and sets no target |
| Telegram.UnarmedFieldsKeepAxes | Tir_code_RK3588/usart_me_Recive.c:58-70 | fields without '$' change only global targets, never an axis record |
| Telegram.LastFieldWins | Tir_code_RK3588/usart_me_Recive.c:58-70 | an axis's target is the value of its last field; an axis with no field keeps its target |
| Telegram.ArmedIffDollarField | Tir_code_RK3588/usart_me_Recive.c:58-70 | an axis ends armed exactly when some field for it carried '$'; otherwise its record is untouched |
| Telegram.TelegramExample | Tir_code_RK3588/usart_me_Recive.c:14-77 | "A:8.5$B:3" sets A to 8.5 and B to 3, arms only B, and leaves C and D alone |
| Telegram.ScanNumber | Tir_code_RK3588/usart_me_Recive.c:42-57 | the number loop stops after the maximal run of number characters with the decimal value of that run |
| Telegram.ScanChar | Tir_code_RK3588/usart_me_Recive.c:47-55 | one loop body keeps the value, the tenth weight and the point flag in step with the text read |
| Telegram.StoreField | Tir_code_RK3588/usart_me_Recive.c:58-70 | storing a field sets that axis's global target, and arms the axis if '$' preceded the field |
| Telegram.FieldsAppliedConcat | Tir_code_RK3588/usart_me_Recive.c:30-76 | applying fields is a left fold: two batches in a row are one batch |
| Telegram.ScanField | Tir_code_RK3588/usart_me_Recive.c:38-71 | a field at j is scanned from j+2 to the end of its number, and its value is stored |
| Telegram.ScanFrom | Tir_code_RK3588/usart_me_Recive.c:32-75 | one loop iteration strictly advances the position, consumes the fields in between, and applies them |
| Telegram.ParseMotorTargets | Tir_code_RK3588/usart_me_Recive.c:14-77 | the table becomes the parse of the line: a bare "$" arms all axes, and any other line applies its fields in order |
| Telegram.ScanLine | Tir_code_RK3588/usart_me_Recive.c:30-76 | the scanning loop applies every field of the line in order |
| Telegram.LinesParsedConcat | Tir_code_RK3588/usart_me_Recive.c:79-97 | parsing lines is a left fold: two batches of lines in a row are one batch |
| Telegram.BufferSplitsAtBreak | Tir_code_RK3588/usart_me_Recive.c:79-97 | a buffer joined at a CR or LF is processed as its first part, then its second |
| Telegram.ProcessUsartLines | Tir_code_RK3588/usart_me_Recive.c:79-97 | every non-empty CR/LF-separated line of the buffer is parsed, in order |
| Pwm.ClampPercent | Tir_code_RK3588/task.c:132-135 | the percent is kept inside 0..100 and raised to 0 or lowered to 100 outside it |
| Pwm.ClampFreq | Tir_code_RK3588/task.c:165-168 | the frequency is kept inside 1..100000 and raised to 1 or lowered to 100000 outside it |
| Pwm.PeriodNs | Tir_code_RK3588/task.c:170 | the period is the floor of 10^9 / freq, between 10^4 and 10^9 ns |
| Pwm.DutyNs | Tir_code_RK3588/task.c:137 | the intended duty is the floor of period*pct/100, between 0 and the period; 0% gives 0 and 100% gives the period |
| Pwm.Wrap32 | Tir_code_RK3588/task.c:137 | a 32-bit int result lies in its range and equals the true value when that fits |
| Pwm.CDiv | Tir_code_RK3588/task.c:137 | C division truncates toward zero |
| Pwm.AsWrittenAgreesBelowOverflow | Tir_code_RK3588/task.c:137 | below 2^31 the int expression as written is the intended duty |
| Pwm.DutyOverflowExample | Tir_code_RK3588/task.c:137 | at 1 Hz and 3% the product overflows int (undefined in C); under the two's-complement wrap the written duty is -12949672 instead of 30000000 |
| Pwm.DutyGuardUnreachable | Tir_code_RK3588/task.c:139-144 | for every period a clamped frequency gives, the "duty above period" guard cannot fire, with or without the overflow |
| Pwm.Pwm.constructor | Tir_code_RK3588/task.c:31-32 | the statics start at 1 kHz (10^6 ns) and 0% |
| Pwm.Pwm.SetDutyCycle | Tir_code_RK3588/task.c:128-159 | the duty written is the int expression of the clamped percent as the source computes it, which is the intended duty whenever the product fits in an int; the stored percent becomes the clamped percent and 0 is returned exactly when the write succeeds, and otherwise -1 is returned with the percent kept |
| Pwm.Pwm.SetFrequency | Tir_code_RK3588/task.c:161-207 | disable, then write the period of the clamped frequency. A failed period write re-enables, returns -1 and keeps the period. Otherwise the period is stored and the duty for the kept percent, computed as the int expression, is written. A failed duty write returns -1 with the output left disabled; success re-enables and returns 0 |
| Pwm.Pwm.GetStatus | Tir_code_RK3588/task.c:227-234 | the reported frequency is the in-range floor of 10^9/period; the reported duty is the int expression as written, never above the period, and the intended non-negative duty whenever the product fits in an int |
| Pwm.FrequencyChangeLeavesOutputEnabled | Tir_code_RK3588/task.c:172-202 | after the echo commands of a frequency change the last enable write is 1, unless the period write succeeded and the duty write failed |
| Pwm.LastEnableAppend | Tir_code_RK3588/task.c:172-202 | the last enable value of a log grows only with enable writes |
| Tasks.Priority | Tir_code_RK3588/task.c:668-693 | every priority is a valid SCHED_FIFO priority, 1..99 |
| Tasks.MotorTasksPreemptOthers | Tir_code_RK3588/task.c:668-693 | the four motor tasks get 80 and everything else less; serial 60 > console 50 > PWM 40 > default 30 > print = process 10 |
| Tasks.ClampMeaning | Tir_code_RK3588/task.c:561-617 | A, B and C values are kept exactly when within 10.5, 9.0 and 18.0, and are otherwise replaced by the limit; D is never clamped |
| Tasks.ParseToken | Tir_code_RK3588/task.c:539-622 | an accepted token names an axis 0..3, is armed exactly when it starts with '$', and its value is within the axis's limit |
| Tasks.ParseTokenMeaning | Tir_code_RK3588/task.c:539-622 | a token is accepted exactly when its letter names an axis and sscanf(":%f") succeeds, with the clamped value; otherwise it is skipped |
| Tasks.TokensAppliedConcat | Tir_code_RK3588/task.c:526-625 | applying tokens is a left fold: two batches of tokens in a row are one batch |
| Tasks.SkippedTokenDiscardsOnlyItself | Tir_code_RK3588/task.c:543-622 | a malformed or unknown token is discarded on its own, and the tokens around it act as if it were absent |
| Tasks.UnarmedLineKeepsFlags | Tir_code_RK3588/task.c:561-617 | without a '$' token, no axis's Process_Flag or EN changes; the global target of A, B and C either keeps its old value or is within that axis's limit |
| Tasks.ThreeTokens | Tir_code_RK3588/task.c:526 | three comma-free non-empty pieces joined by commas are exactly three tokens |
| Tasks.ExampleParseA | Tir_code_RK3588/task.c:539-577 | "$A:12" arms A with the value clamped to 10.5 |
| Tasks.ExampleParseB | Tir_code_RK3588/task.c:529-592 | " B:3" is trimmed and sets B to 3, unarmed |
| Tasks.ExampleParseE | Tir_code_RK3588/task.c:618-622 | "E:1" is skipped |
| Tasks.ConsoleExample | Tir_code_RK3588/task.c:526-626 | "$A:12, B:3,E:1" sets A to 10.5 armed and B to 3, and leaves C and D alone |
| Tasks.FirstLine | Tir_code_RK3588/task.c:459 | the line is the input cut at the first newline |
| Tasks.Classify | Tir_code_RK3588/task.c:461-524 | each reserved form ("@", "P:", "F:", "PWM", "$") is recognised exactly by its own test, so their order decides nothing |
| Tasks.Flags.constructor | Tir_code_RK3588/task.c:22-23 | Printf_Flag starts at 1 and Process_continue_flag at 0; Finish_flag, declared at line 633, starts at 1 |
| Tasks.TrimToken | Tir_code_RK3588/task.c:529-533 | the two trimming loops delimit exactly the trimmed token |
| Tasks.ApplyToken | Tir_code_RK3588/task.c:535-624 | one token changes the table as its parse says: target set with the clamped value, then arming if '$' led |
| Tasks.ApplyTokens | Tir_code_RK3588/task.c:526-625 | the strtok loop applies every comma-separated token in order |
| Tasks.ArmAllCommand | Tir_code_RK3588/task.c:496-524 | "$" arms all four axes and sets Printf_Flag and Process_continue_flag to 1 |
| Tasks.ConsoleLine | Tir_code_RK3588/task.c:459-626 | per line class: "@" sets Printf_Flag only; "P:" and "F:" act as the PWM setters with atoi's value, including the duty as the int expression computes it and the full echo log; "PWM" changes nothing; "$" arms all; any other line applies its tokens and sets Printf_Flag; Finish_flag is never touched |
| Tasks.LaunchAdvancesAndWaits | Tir_code_RK3588/task.c:640-651 | a launch while waypoints remain installs the next waypoint, enables and arms A, B and C, clears State, leaves D's EN and flag alone, and keeps Finish_flag at 0 |
| Tasks.InFlightWaitsForABC | Tir_code_RK3588/task.c:652-657 | while a step is in flight nothing is launched, and Finish_flag rises exactly when A, B and C are done, whatever D reports |
| Tasks.NoLaunchWithoutContinue | Tir_code_RK3588/task.c:640 | without "$" having been typed the table and cursor never change |
| Tasks.ExhaustedSequenceKeepsRelaunching | Tir_code_RK3588/task.c:640-657 | after the sixth waypoint a launch leaves targets and cursor alone but re-arms A, B and C; Finish_flag then follows their State |
| Tasks.Raise | Tir_code_RK3588/task.c:643-648 | only EN=Enable and Process_Flag=1 change on that record |
| Tasks.Launch | Tir_code_RK3588/task.c:643-648 | A, B and C are enabled and armed; D is not touched |
| Tasks.ProcessStep | Tir_code_RK3588/task.c:640-657 | one round of process_task leaves the table, cursor and Finish_flag that the gating function gives (see the four lemmas above) |

## Left out

- Tir_code_RK3588/serial.c is not part of this model (termios setup and select/read/write wrappers). The same goes for the serial task's float decoding, its pH classification and its "OK" acknowledgement.
- Thread creation, joining, SCHED_FIFO setup, the signal handler, the `running` flag, every sleep, and every mutex. Each lock/unlock pair becomes one sequential method call. The `Process_Flag` values a run observes are the readings sequence passed to `Motor.Motor.Run`. Readings past its end read 1. Under the program's locking every reading is 1.
- Float rounding: positions and parsed values are exact reals. 0.002f and `frac *= 0.1f` are exact, and the console clamps compare reals.
- `sscanf("%f")` and `atoi` are function parameters, so their results are not modelled. Every `system("echo ...")`, `open()` and `gpio_request` is a success flag. The sysfs writes are recorded as a log of (attribute, value) pairs.
- init_pwm, pwm_task and cleanup_tasks (lifecycle and output only), printf diagnostics, Print_Motor_IO_State and print_task.
- Kernel registration in mydevice_init (chrdev region, cdev, class, device, module init/exit). After the pins are requested, a later failure there does not free them. MAX_GPIO_PINS (8) is declared but unused; the driver configures twelve pins.
- Tir_code_RK3588/main.c, task.h and serial.h are not part of this model. Nothing in the repository calls Process_Usart_Lines, so the telegram layer stands alone.
- The console reads 127 characters at a time with fgets. A longer line arrives as several lines; the model takes one line as given.
- Motor.Axes.PollAxis: requires the global target to be in -1 < x < 65536. Outside that range the conversion to uint16_t is undefined in C, so a negative console value (which is never lower-clamped) is not covered.
- Tasks.ParseToken: the tokens "$" and "" make the source read past the token's end, with sscanf at token+2 and token+1 respectively. The token "" comes from a token of spaces only, which trims to nothing. In both cases the letter read is the terminator, which names no axis, so both tokens are skipped, and the model skips them.
- Tasks.ParseToken: the source tests the sscanf result before the letter. The order only changes which diagnostic is printed, so both failures are one Skip.
- Motor.Gpio.Toggle: its shadow and the kernel's levels are separate. A line written by another path (Motor_Init, STOP_MOTOR, the all-on ioctl) is not reflected in the shadow, and the model keeps that.

## Findings

| source | as written | input that shows it | evidently intended | confidence | as-written member | corrected member |
|---|---|---|---|---|---|---|
| Tir_code_RK3588/task.c:137 (also 187 and 229) | `int duty_ns = (current_period_ns * duty_percent) / 100;` multiplies two ints, and the product passes 2^31-1 once the period exceeds 21474836 ns | console line "F:1" (period 10^9 ns), then "P:3": the product 3*10^9 overflows int, which is undefined in C; under the two's-complement wrap the target compiler produces it becomes -1294967296, so the duty written is -12949672 | the duty is the floor of period*percent/100, computed in a 64-bit type; the "duty above period" guard at 139-144 is then provably dead. The PWM methods write the expression as written, which equals the intended duty whenever the product fits in an int | not executed | Pwm.DutyOverflowExample | Pwm.DutyGuardUnreachable |

=== FILE: c_strings.dfy ===
/**
 * The C string conventions the command layers rely on: a NUL-terminated
 * string, strtok's splitting into maximal non-empty tokens, and the space
 * trimming the console applies to each token.
 */
module CStrings {

  const Nul: char := '\0'

  /** A C string's characters: none of them is the terminator. */
  predicate IsCString(s: string)
  {
    Nul !in s
  }

  /** rx[i] in C: the character at i, or the terminator at and past the end. */
  function At(s: string, i: nat): char
  {
    if i < |s| then s[i] else Nul
  }

  /** Length of the longest prefix of s that holds no delimiter. */
  function TokenLen(s: string, delims: set<char>): (n: nat)
    ensures n <= |s|
    ensures forall i :: 0 <= i < n ==> s[i] !in delims
    ensures n < |s| ==> s[n] in delims
  {
    if s == [] || s[0] in delims then 0 else 1 + TokenLen(s[1..], delims)
  }

  /**
   * The successive results of strtok(s, delims), strtok(NULL, delims), ...:
   * delimiters are skipped, and each token is a maximal run of other characters.
   */
  function Tokens(s: string, delims: set<char>): seq<string>
    decreases |s|
  {
    if s == [] then []
    else if s[0] in delims then Tokens(s[1..], delims)
    else
      var n := TokenLen(s, delims);
      [s[..n]] + Tokens(s[n..], delims)
  }

  /** strtok never yields an empty token, nor one holding a delimiter. */
  lemma {:induction false} TokensAreNonEmptyRuns(s: string, delims: set<char>)
    ensures forall t :: t in Tokens(s, delims) ==> |t| > 0 && forall c :: c in t ==> c !in delims
    decreases |s|
  {
    if s == [] {
    } else if s[0] in delims {
      TokensAreNonEmptyRuns(s[1..], delims);
    } else {
      var n := TokenLen(s, delims);
      TokensAreNonEmptyRuns(s[n..], delims);
      assert Tokens(s, delims) == [s[..n]] + Tokens(s[n..], delims);
    }
  }

  /** Every character of every token comes from the input. */
  lemma {:induction false} TokensDrawFrom(s: string, delims: set<char>)
    ensures forall t, c :: t in Tokens(s, delims) && c in t ==> c in s
    decreases |s|
  {
    if s == [] {
    } else if s[0] in delims {
      TokensDrawFrom(s[1..], delims);
    } else {
      var n := TokenLen(s, delims);
      TokensDrawFrom(s[n..], delims);
      assert Tokens(s, delims) == [s[..n]] + Tokens(s[n..], delims);
      assert forall c :: c in s[..n] || c in s[n..] ==> c in s;
    }
  }

  /** So the tokens of a C string are C strings. */
  lemma TokensOfCString(s: string, delims: set<char>)
    requires IsCString(s)
    ensures forall t :: t in Tokens(s, delims) ==> IsCString(t)
  {
    TokensDrawFrom(s, delims);
  }

  /** A non-empty string without delimiters is one token. */
  lemma {:induction false} TokensOfRun(s: string, delims: set<char>)
    requires |s| > 0 && forall i :: 0 <= i < |s| ==> s[i] !in delims
    ensures Tokens(s, delims) == [s]
  {
    var n := TokenLen(s, delims);
    assert n == |s|;
    assert s[..n] == s;
  }

  /** Tokens are produced in order: splitting at a delimiter splits the token list. */
  lemma {:induction false} TokensOfJoin(a: string, d: char, b: string, delims: set<char>)
    requires d in delims
    ensures Tokens(a + [d] + b, delims) == Tokens(a, delims) + Tokens(b, delims)
    decreases |a|
  {
    var s := a + [d] + b;
    if a == [] {
      assert s[1..] == b;
    } else if a[0] in delims {
      assert s[1..] == a[1..] + [d] + b;
      TokensOfJoin(a[1..], d, b, delims);
    } else {
      var n := TokenLen(a, delims);
      TokenLenOfJoin(a, d, b, delims);
      assert s[..n] == a[..n];
      if n == |a| {
        assert s[n..] == [d] + b;
        assert ([d] + b)[1..] == b;
        assert a[n..] == [];
      } else {
        assert s[n..] == a[n..] + [d] + b;
        TokensOfJoin(a[n..], d, b, delims);
      }
    }
  }

  lemma TokenLenOfJoin(a: string, d: char, b: string, delims: set<char>)
    requires d in delims
    ensures TokenLen(a + [d] + b, delims) == TokenLen(a, delims)
  {
    var s := a + [d] + b;
    var n := TokenLen(a, delims);
    assert n < |s| && s[n] in delims;
  }

  /** Number of leading spaces. */
  function LeadingSpaces(s: string): (n: nat)
    ensures n <= |s|
    ensures forall i :: 0 <= i < n ==> s[i] == ' '
    ensures n < |s| ==> s[n] != ' '
  {
    if s == [] || s[0] != ' ' then 0 else 1 + LeadingSpaces(s[1..])
  }

  /** Number of trailing spaces. */
  function TrailingSpaces(s: string): (n: nat)
    ensures n <= |s|
    ensures forall i :: |s| - n <= i < |s| ==> s[i] == ' '
    ensures n < |s| ==> s[|s| - n - 1] != ' '
  {
    if s == [] || s[|s| - 1] != ' ' then 0 else 1 + TrailingSpaces(s[..|s| - 1])
  }

  /** The token with its leading and trailing spaces removed. */
  function Trim(s: string): string
  {
    var t := s[LeadingSpaces(s)..];
    t[..|t| - TrailingSpaces(t)]
  }

  /** A string that neither starts nor ends with a space is its own trim. */
  lemma TrimUnpadded(s: string)
    requires |s| > 0 && s[0] != ' ' && s[|s| - 1] != ' '
    ensures Trim(s) == s
  {
    assert s[0..] == s;
  }

  /** A leading space is dropped by trimming. */
  lemma TrimLeading(s: string)
    requires |s| > 0 && s[0] == ' '
    ensures Trim(s) == Trim(s[1..])
  {
  }

  /** Trimming keeps a contiguous slice that neither starts nor ends with a space, and removes only spaces. */
  lemma TrimMeaning(s: string)
    ensures var lo := LeadingSpaces(s);
      var hi := lo + |Trim(s)|;
      && hi <= |s| && Trim(s) == s[lo..hi]
      && (forall i :: 0 <= i < lo || hi <= i < |s| ==> s[i] == ' ')
      && (|Trim(s)| > 0 ==> Trim(s)[0] != ' ' && Trim(s)[|Trim(s)| - 1] != ' ')
  {
  }
}

=== FILE: gpio_driver.dfy ===
/**
 * The kernel character device behind the pin backend: a table of twelve
 * GPIO numbers, an ioctl that drives them by table index, open/release
 * that pull every line low, and the request loop of module init with its
 * rollback (Avd_gpio_driver_Third.c).
 */
module GpioDriver {
  import MotorDefs

  /** _IO(type, nr) from the Linux ioctl encoding: no direction, no size. */
  function Io(magic: nat, nr: nat): nat
    requires nr < 256
  {
    magic * 256 + nr
  }

  const GpioIocMagic: nat := 0x6B  // 'k'
  const SetGpioOn: nat := Io(GpioIocMagic, 0)
  const SetGpioOff: nat := Io(GpioIocMagic, 1)
  const SetGpioAllOn: nat := Io(GpioIocMagic, 2)
  const SetGpioAllOff: nat := Io(GpioIocMagic, 3)

  /** Linux error numbers returned (negated) by the driver. */
  const EBUSY: int := 16
  const EINVAL: int := 22
  const ENOTTY: int := 25

  /** The gpio_pins table: RK3588 GPIO numbers, indexed by the pin index user space passes. */
  const GpioPins: seq<int> := [109, 108, 98, 104, 115, 123, 110, 102, 100, 101, 105, 103]

  /** gpio_count, the table's length. */
  const GpioCount: nat := 12

  /** The pad label written beside each gpio_pins entry (all on bank GPIO3). */
  const PinPads: seq<(char, nat)> := [
    ('B', 5), ('B', 4), ('A', 2),
    ('B', 0), ('C', 3), ('D', 3),
    ('B', 6), ('A', 6), ('A', 4),
    ('A', 5), ('B', 1), ('A', 7)
  ]

  /** The IDX_GPIO3_* macros: pad label to table index. */
  const IdxOf: map<(char, nat), nat> := map[
    ('B', 5) := 0, ('B', 4) := 1, ('A', 2) := 2,
    ('B', 0) := 3, ('C', 3) := 4, ('D', 3) := 5,
    ('B', 6) := 6, ('A', 6) := 7, ('A', 4) := 8,
    ('A', 5) := 9, ('B', 1) := 10, ('A', 7) := 11
  ]

  /** The RK3588 numbering rule GPIOn_xy = n*32 + (x-1)*8 + y, with group letters A..D counted from 1. */
  function Rk3588Number(bank: nat, group: char, pin: nat): int
    requires 'A' <= group <= 'D'
  {
    bank * 32 + ((group as int - 'A' as int + 1) - 1) * 8 + pin
  }

  /** Every table entry is the number the rule gives for its GPIO3 pad label. */
  lemma GpioPinsFollowFormula()
    ensures |GpioPins| == |PinPads| == GpioCount
    ensures forall i :: 0 <= i < GpioCount ==>
      'A' <= PinPads[i].0 <= 'D' && GpioPins[i] == Rk3588Number(3, PinPads[i].0, PinPads[i].1)
  {
  }

  /** The twelve GPIO numbers are pairwise distinct, so each index drives its own line. */
  lemma GpioPinsDistinct()
    ensures forall i, j :: 0 <= i < j < GpioCount ==> GpioPins[i] != GpioPins[j]
  {
  }

  /** The IDX_GPIO3_* macros, the table's pad comments and the per-axis pad comments of the pin layout all agree. */
  lemma IndicesAgreeWithMotorLayout()
    ensures forall i :: 0 <= i < GpioCount ==> PinPads[i] in IdxOf && IdxOf[PinPads[i]] == i
    ensures forall i :: 0 <= i < GpioCount ==> PinPads[i] == MotorDefs.PinLabels[i]
    ensures GpioCount == MotorDefs.PinCount
  {
  }

  /** Index of the first failed request in a run of gpio_request outcomes, or the length if none failed. */
  function FirstFailure(ok: seq<bool>): (f: nat)
    ensures f <= |ok|
    ensures forall i :: 0 <= i < f ==> ok[i]
    ensures f < |ok| ==> !ok[f]
  {
    if ok == [] || !ok[0] then 0 else 1 + FirstFailure(ok[1..])
  }

  class Device {
    /** levels[i] is the output level of GPIO number GpioPins[i] (true = high). */
    const levels: array<bool>
    /** requested[i] holds while GpioPins[i] is claimed through gpio_request. */
    const requested: array<bool>

    predicate Valid()
    {
      levels.Length == GpioCount && requested.Length == GpioCount && levels != requested
    }

    constructor ()
      ensures Valid() && fresh(levels) && fresh(requested)
    {
      levels := new bool[GpioCount];
      requested := new bool[GpioCount];
    }

    /** Drive every line of the table to one level (the loops of open, release and the all-on/all-off commands). */
    method SetAll(high: bool)
      requires Valid()
      modifies levels
      ensures forall i :: 0 <= i < GpioCount ==> levels[i] == high
    {
      for i := 0 to GpioCount
        invariant forall j :: 0 <= j < i ==> levels[j] == high
      {
        levels[i] := high;
      }
    }

    /** device_open: configure every line as an output at low level. */
    method Open() returns (r: int)
      requires Valid()
      modifies levels
      ensures r == 0
      ensures forall i :: 0 <= i < GpioCount ==> !levels[i]
    {
      SetAll(false);
      r := 0;
    }

    /** device_release: pull every line low. */
    method Release() returns (r: int)
      requires Valid()
      modifies levels
      ensures r == 0
      ensures forall i :: 0 <= i < GpioCount ==> !levels[i]
    {
      SetAll(false);
      r := 0;
    }

    /** GPIO_ioctl: per-index on/off with a bounds check, all-on, all-off, anything else refused. */
    method Ioctl(cmd: nat, arg: nat) returns (r: int)
      requires Valid()
      modifies levels
      ensures cmd == SetGpioOn || cmd == SetGpioOff ==>
        if arg < GpioCount then
          r == 0 && levels[..] == old(levels[..])[arg := cmd == SetGpioOn]
        else
          r == -EINVAL && levels[..] == old(levels[..])
      ensures cmd == SetGpioAllOn || cmd == SetGpioAllOff ==>
        r == 0 && forall i :: 0 <= i < GpioCount ==> levels[i] == (cmd == SetGpioAllOn)
      ensures cmd !in {SetGpioOn, SetGpioOff, SetGpioAllOn, SetGpioAllOff} ==>
        r == -ENOTTY && levels[..] == old(levels[..])
    {
      if cmd == SetGpioOn {
        if arg >= GpioCount {
          return -EINVAL;
        }
        levels[arg] := true;
      } else if cmd == SetGpioOff {
        if arg >= GpioCount {
          return -EINVAL;
        }
        levels[arg] := false;
      } else if cmd == SetGpioAllOn {
        SetAll(true);
      } else if cmd == SetGpioAllOff {
        SetAll(false);
      } else {
        return -ENOTTY;
      }
      r := 0;
    }

    /**
     * The request loop of mydevice_init. Each pin is first freed, then
     * requested; ok[i] is the outcome of gpio_request for pin i. On the first
     * failure every pin requested before it is freed again and -EBUSY is
     * returned.
     */
    method RequestPins(ok: seq<bool>) returns (r: int)
      requires Valid() && |ok| == GpioCount
      modifies requested
      ensures r == 0 <==> FirstFailure(ok) == GpioCount
      ensures r == 0 ==> forall i :: 0 <= i < GpioCount ==> requested[i]
      ensures r != 0 ==> r == -EBUSY
      ensures r != 0 ==> forall i :: 0 <= i <= FirstFailure(ok) ==> !requested[i]
      ensures forall i :: FirstFailure(ok) < i < GpioCount ==> requested[i] == old(requested[i])
    {
      var i := 0;
      while i < GpioCount
        invariant 0 <= i <= GpioCount
        invariant forall j :: 0 <= j < i ==> ok[j] && requested[j]
        invariant forall j :: i <= j < GpioCount ==> requested[j] == old(requested[j])
      {
        requested[i] := false;  // gpio_free
        if !ok[i] {
          assert FirstFailure(ok) == i;
          var k := i;
          while k > 0
            invariant 0 <= k <= i
            invariant forall j :: k <= j <= i ==> !requested[j]
            invariant forall j :: 0 <= j < k ==> requested[j]
            invariant forall j :: i < j < GpioCount ==> requested[j] == old(requested[j])
          {
            k := k - 1;
            requested[k] := false;
          }
          return -EBUSY;
        }
        requested[i] := true;
        i := i + 1;
      }
      assert FirstFailure(ok) == GpioCount;
      r := 0;
    }
  }
}

=== FILE: motor.dfy ===
/**
 * The open-loop axis engine (motor.c): the user-space pin writer with the
 * toggle shadow, the per-axis record and its operations (init, retarget,
 * one poll of the pulse executor, stop, arm), and the table of four axes
 * with their global targets and the scripted waypoint sequence.
 */
module Motor {
  import opened MotorDefs
  import GpioDriver

  // ---------------------------------------------------------------------
  // Values

  /** One axis record: the fields of the motor struct. */
  datatype Axis = Axis(
    en: Control, dir: Control,
    current: real, target: real,
    enPin: nat, dirPin: nat, pulPin: nat,
    state: Byte, processFlag: Byte, printOnce: Byte)

  /** What one poll of the executor leaves: the record and the number of pulses it emitted. */
  datatype Poll = Poll(axis: Axis, pulses: nat)

  /** The four axis records with the four global targets Target_Circle_A..D. */
  datatype Table = Table(targets: seq<real>, axes: seq<Axis>)

  predicate WellFormed(ts: Table)
  {
    |ts.targets| == AxisCount && |ts.axes| == AxisCount
  }

  function Abs(x: real): real
  {
    if x < 0.0 then -x else x
  }

  /** n copies of x. */
  function Repeat(x: nat, n: nat): (r: seq<nat>)
    ensures |r| == n && forall i :: 0 <= i < n ==> r[i] == x
  {
    seq(n, _ => x)
  }

  // ---------------------------------------------------------------------
  // The pin shadow and the levels written through the device

  /** The shadow after one gpio_toggle of idx: that entry flipped, or nothing if idx is out of range. */
  function Flipped(s: seq<bool>, idx: nat): seq<bool>
  {
    if idx < |s| then s[idx := !s[idx]] else s
  }

  /** The shadow after n toggles of idx. */
  function FlippedN(s: seq<bool>, idx: nat, n: nat): seq<bool>
  {
    if n == 0 then s else Flipped(FlippedN(s, idx, n - 1), idx)
  }

  /** Toggling twice restores the shadow. */
  lemma FlippedTwice(s: seq<bool>, idx: nat)
    ensures Flipped(Flipped(s, idx), idx) == s
  {
  }

  /** Only the parity of the number of toggles matters. */
  lemma {:induction false} FlippedNParity(s: seq<bool>, idx: nat, n: nat)
    ensures FlippedN(s, idx, n) == if n % 2 == 0 then s else Flipped(s, idx)
  {
    if n > 0 {
      FlippedNParity(s, idx, n - 1);
      FlippedTwice(s, idx);
    }
  }

  /** The levels after a successful SET_GPIO_ON/OFF on idx. */
  function Written(levels: seq<bool>, idx: nat, high: bool): seq<bool>
  {
    if idx < |levels| then levels[idx := high] else levels
  }

  /** Three lines written low: exactly those indices read false, the rest keep their level. */
  lemma WrittenLowThree(levels: seq<bool>, a: nat, b: nat, c: nat)
    ensures var r := Written(Written(Written(levels, a, false), b, false), c, false);
      |r| == |levels| && forall p :: 0 <= p < |levels| ==> r[p] == if p == a || p == b || p == c then false else levels[p]
  {
  }

  /** The user-space side of the pin backend: the device handle, gpio_toggle's shadow, and the driver behind it. */
  class Gpio {
    /** gpio_fd >= 0 */
    var fdOpen: bool
    /** The driver instance behind the device node. */
    const dev: GpioDriver.Device
    /** gpio_toggle's static gpio_states[12]. */
    const shadow: array<bool>
    /** Every index passed to gpio_toggle, in call order. */
    ghost var toggles: seq<nat>

    predicate Valid()
    {
      dev.Valid() && shadow.Length == PinCount
      && shadow != dev.levels && shadow != dev.requested
    }

    constructor (d: GpioDriver.Device)
      requires d.Valid()
      ensures Valid() && dev == d && fresh(shadow)
      ensures !fdOpen && toggles == []
      ensures forall i :: 0 <= i < PinCount ==> !shadow[i]
    {
      dev := d;
      fdOpen := false;
      toggles := [];
      shadow := new bool[PinCount](_ => false);
    }

    /**
     * motor_gpio_init: success says whether open() of the device node
     * succeeds; a successful open runs the driver's device_open.
     */
    method Open(success: bool) returns (r: int)
      requires Valid()
      modifies this`fdOpen, dev.levels
      ensures fdOpen == success
      ensures r == (if success then 0 else -1)
      ensures success ==> forall p :: 0 <= p < PinCount ==> !dev.levels[p]
      ensures !success ==> dev.levels[..] == old(dev.levels[..])
    {
      if !success {
        fdOpen := false;
        return -1;
      }
      var _ := dev.Open();
      fdOpen := true;
      r := 0;
    }

    /**
     * motor_gpio_close, and the close in motor_cleanup: closing an open
     * handle runs the driver's device_release.
     */
    method Close()
      requires Valid()
      modifies this`fdOpen, dev.levels
      ensures !fdOpen
      ensures old(fdOpen) ==> forall p :: 0 <= p < PinCount ==> !dev.levels[p]
      ensures !old(fdOpen) ==> dev.levels[..] == old(dev.levels[..])
    {
      if fdOpen {
        var _ := dev.Release();
        fdOpen := false;
      }
    }

    /** gpio_write: one SET_GPIO_ON/OFF ioctl; a failed ioctl reads as -1 in user space. */
    method Write(idx: nat, value: int) returns (r: int)
      requires Valid()
      modifies dev.levels
      ensures r == (if fdOpen && idx < PinCount then 0 else -1)
      ensures dev.levels[..] == if fdOpen then Written(old(dev.levels[..]), idx, value != 0) else old(dev.levels[..])
    {
      if !fdOpen {
        return -1;
      }
      var cmd := if value != 0 then GpioDriver.SetGpioOn else GpioDriver.SetGpioOff;
      var res := dev.Ioctl(cmd, idx);
      r := if res < 0 then -1 else res;
    }

    /** gpio_toggle: flip the shadow entry and write it; an index of 12 or more is refused with -1. */
    method Toggle(idx: nat) returns (r: int)
      requires Valid()
      modifies this`toggles, shadow, dev.levels
      ensures toggles == old(toggles) + [idx]
      ensures shadow[..] == Flipped(old(shadow[..]), idx)
      ensures r == (if fdOpen && idx < PinCount then 0 else -1)
      ensures dev.levels[..] == if fdOpen && idx < PinCount then Written(old(dev.levels[..]), idx, shadow[idx]) else old(dev.levels[..])
    {
      toggles := toggles + [idx];
      if idx >= PinCount {
        return -1;
      }
      shadow[idx] := !shadow[idx];
      r := Write(idx, if shadow[idx] then 1 else 0);
    }

    /**
     * The pulse loop of Motor_Run_Circle: toggle idx up to n times; after the
     * toggle of index i the arm flag reads Observed(readings, i), and a value
     * other than 1 ends the loop. Returns the index at which it ended, or n.
     */
    method Pulses(idx: nat, n: nat, readings: seq<Byte>) returns (c: nat)
      requires Valid()
      modifies this`toggles, shadow, dev.levels
      ensures c == FirstCancel(readings, n)
      ensures toggles == old(toggles) + Repeat(idx, Emitted(c, n))
      ensures shadow[..] == FlippedN(old(shadow[..]), idx, Emitted(c, n))
      ensures forall p :: 0 <= p < PinCount && p != idx ==> dev.levels[p] == old(dev.levels[p])
      ensures fdOpen && idx < PinCount && Emitted(c, n) > 0 ==> dev.levels[idx] == shadow[idx]
    {
      for i := 0 to n
        invariant toggles == old(toggles) + Repeat(idx, i)
        invariant shadow[..] == FlippedN(old(shadow[..]), idx, i)
        invariant forall k :: 0 <= k < i ==> Observed(readings, k) == 1
        invariant forall p :: 0 <= p < PinCount && p != idx ==> dev.levels[p] == old(dev.levels[p])
        invariant fdOpen && idx < PinCount && i > 0 ==> dev.levels[idx] == shadow[idx]
      {
        var _ := Toggle(idx);
        if Observed(readings, i) != 1 {
          assert FirstCancel(readings, n) == i;
          return i;
        }
      }
      assert FirstCancel(readings, n) == n;
      c := n;
    }
  }

  // ---------------------------------------------------------------------
  // The axis operations, as functions of the record

  /** Motor_Init's record. */
  function Initialised(enPin: nat, dirPin: nat, pulPin: nat): Axis
  {
    Axis(Disable, Forward, 0.0, 0.0, enPin, dirPin, pulPin, 0, 0, 0)
  }

  /** Set_MOTOR_Target_Circle_and_DIR's record. */
  function Retargeted(a: Axis, t: int, en: Control): Axis
  {
    var b := a.(en := en, target := t as real);
    if b.current == b.target then b.(en := Disable, state := 1)
    else b.(dir := if b.current < b.target then Forward else Backward, en := Enable)
  }

  /** Begin_Motor_flag's record. */
  function Armed(a: Axis): Axis
  {
    a.(processFlag := 1, state := 0)
  }

  /** STOP_MOTOR's record. */
  function Stopped(a: Axis): Axis
  {
    a.(processFlag := 0, en := Disable)
  }

  /** RUN_Line: the distance to go, signed by the direction. */
  function RunLine(a: Axis): real
  {
    if a.dir == Forward then a.target - a.current else -(a.target - a.current)
  }

  /** (int)(d / 0.002): the pulses that cover a non-negative distance d. */
  function PulseCount(d: real): (n: nat)
    requires d >= 0.0
    ensures n as real * Step <= d < (n + 1) as real * Step
  {
    (d / Step).Floor
  }

  /** The value of Process_Flag observed at pulse index i; readings past the end saw no other writer, so they read 1. */
  function Observed(readings: seq<Byte>, i: nat): Byte
  {
    if i < |readings| then readings[i] else 1
  }

  /** The first of n pulse indices at which the arm flag is seen withdrawn, or n if none is. */
  function FirstCancel(readings: seq<Byte>, n: nat): (c: nat)
    ensures c <= n
    ensures forall i :: 0 <= i < c ==> Observed(readings, i) == 1
    ensures c < n ==> Observed(readings, c) != 1
  {
    if n == 0 then 0
    else
      var c' := FirstCancel(readings, n - 1);
      if c' < n - 1 then c'
      else if Observed(readings, n - 1) != 1 then n - 1
      else n
  }

  /** Pulses emitted by a loop of n that ended at index c: the pulse at c is sent before the flag is read. */
  function Emitted(c: nat, n: nat): nat
  {
    if c < n then c + 1 else n
  }

  /** The position recorded when the run stops at pulse index i. */
  function Moved(a: Axis, i: nat): real
  {
    if a.dir == Forward then a.current + i as real * Step else a.current - i as real * Step
  }

  /** After retargeting, the distance to go is |target - current|, never negative. */
  lemma RunLineIsDistance(a: Axis, t: int, en: Control)
    ensures RunLine(Retargeted(a, t, en)) == Abs(t as real - a.current)
  {
  }

  /**
   * One call of Motor_Run_Circle with the uint16_t target t: retarget, then
   * either note the unarmed state once, or run the pulse train with the
   * cancellation readings, or do nothing.
   */
  function Polled(a: Axis, t: int, en: Control, readings: seq<Byte>): Poll
    requires 0 <= t < 65536
  {
    RunLineIsDistance(a, t, en);
    Stepped(Retargeted(a, t, en), readings)
  }

  /** What Motor_Run_Circle does after retargeting the record to b. */
  function Stepped(b: Axis, readings: seq<Byte>): Poll
    requires RunLine(b) >= 0.0
  {
    if b.processFlag == 0 && b.printOnce == 0 then
      Poll(b.(printOnce := 1), 0)
    else if b.processFlag == 1 && b.state == 0 then
      var n := PulseCount(RunLine(b));
      var c := FirstCancel(readings, n);
      if c < n then
        Poll(b.(processFlag := Observed(readings, c), current := Moved(b, c)), c + 1)
      else
        Poll(b.(current := b.target, state := 1, processFlag := 0, printOnce := 0), n)
    else
      Poll(b, 0)
  }

  // ---------------------------------------------------------------------
  // Properties of the axis operations

  /** Retargeting: equal positions disable and mark done; otherwise the direction follows the sign and the drive is enabled. The enable argument never survives. */
  lemma RetargetChoosesDirection(a: Axis, t: int, en: Control)
    ensures var b := Retargeted(a, t, en);
      && b.target == t as real && b.current == a.current
      && b.processFlag == a.processFlag && b.printOnce == a.printOnce
      && (a.current == t as real ==> b.en == Disable && b.state == 1 && b.dir == a.dir)
      && (a.current != t as real ==> b.en == Enable && b.state == a.state && (b.dir == Forward <==> a.current < t as real))
  {
  }

  /** Polling with the same target twice retargets to the same record. */
  lemma RetargetIdempotent(a: Axis, t: int, en: Control)
    ensures Retargeted(Retargeted(a, t, en), t, en) == Retargeted(a, t, en)
  {
  }

  /** An unarmed poll moves nothing and leaves the flag clear; it only sets the print-once mark. */
  lemma PollUnarmed(a: Axis, t: int, en: Control, readings: seq<Byte>)
    requires 0 <= t < 65536 && a.processFlag == 0
    ensures var p := Polled(a, t, en, readings);
      && p.pulses == 0 && p.axis.current == a.current && p.axis.processFlag == 0
      && p.axis.printOnce == (if a.printOnce == 0 then 1 else a.printOnce)
      && p.axis == Retargeted(a, t, en).(printOnce := p.axis.printOnce)
  {
  }

  /** An armed axis already at its target is marked done and emits nothing; its arm flag stays set. */
  lemma PollAtTarget(a: Axis, t: int, en: Control, readings: seq<Byte>)
    requires 0 <= t < 65536 && a.processFlag == 1 && a.current == t as real
    ensures var p := Polled(a, t, en, readings);
      p.pulses == 0 && p.axis == Retargeted(a, t, en) && p.axis.state == 1 && p.axis.processFlag == 1
  {
  }

  /** An armed, unfinished run that is never cancelled emits (int)(|t - current| / 0.002) pulses and lands on the target, done and disarmed. */
  lemma PollRunsToTarget(a: Axis, t: int, en: Control, readings: seq<Byte>)
    requires 0 <= t < 65536 && a.processFlag == 1 && a.state == 0 && a.current != t as real
    requires FirstCancel(readings, PulseCount(Abs(t as real - a.current))) == PulseCount(Abs(t as real - a.current))
    ensures var p := Polled(a, t, en, readings);
      && p.pulses == PulseCount(Abs(t as real - a.current))
      && p.axis.current == p.axis.target == t as real
      && p.axis.state == 1 && p.axis.processFlag == 0 && p.axis.printOnce == 0
  {
    RunLineIsDistance(a, t, en);
  }

  /**
   * A run whose flag is seen withdrawn at pulse index c has emitted c + 1
   * pulses, records a move of only c steps towards the target, stays
   * unfinished, and keeps the flag value that was seen. Under the
   * program's locking every reading is 1, so this path is not reached there.
   */
  lemma PollCancelled(a: Axis, t: int, en: Control, readings: seq<Byte>)
    requires 0 <= t < 65536 && a.processFlag == 1 && a.state == 0 && a.current != t as real
    requires FirstCancel(readings, PulseCount(Abs(t as real - a.current))) < PulseCount(Abs(t as real - a.current))
    ensures var c := FirstCancel(readings, PulseCount(Abs(t as real - a.current)));
      var p := Polled(a, t, en, readings);
      && p.pulses == c + 1
      && p.axis.current == (if a.current < t as real then a.current + c as real * Step else a.current - c as real * Step)
      && Abs(p.axis.current - a.current) == (p.pulses - 1) as real * Step
      && p.axis.state == 0 && p.axis.processFlag == Observed(readings, c) && p.axis.processFlag != 1
      && p.axis.printOnce == a.printOnce && p.axis.target == t as real
  {
    RunLineIsDistance(a, t, en);
  }

  /** Once a poll has found the axis unarmed, further polls with the same target change nothing. */
  lemma UnarmedPollIsFixpoint(a: Axis, t: int, en: Control, r1: seq<Byte>, r2: seq<Byte>)
    requires 0 <= t < 65536 && a.processFlag == 0
    ensures var p := Polled(a, t, en, r1);
      Polled(p.axis, t, en, r2) == Poll(p.axis, 0)
  {
    RetargetIdempotent(a, t, en);
  }

  /** A finished run is followed by exactly one poll that sets the print-once mark; after it the axis is at rest. */
  lemma FinishedRunSettles(a: Axis, t: int, en: Control, r1: seq<Byte>, r2: seq<Byte>, r3: seq<Byte>)
    requires 0 <= t < 65536 && a.processFlag == 1 && a.state == 0 && a.current != t as real
    requires FirstCancel(r1, PulseCount(Abs(t as real - a.current))) == PulseCount(Abs(t as real - a.current))
    ensures var p1 := Polled(a, t, en, r1);
      var p2 := Polled(p1.axis, t, en, r2);
      && p2.pulses == 0 && p2.axis == p1.axis.(en := Disable, printOnce := 1)
      && Polled(p2.axis, t, en, r3) == Poll(p2.axis, 0)
  {
    PollRunsToTarget(a, t, en, r1);
    var p1 := Polled(a, t, en, r1);
    PollUnarmed(p1.axis, t, en, r2);
    UnarmedPollIsFixpoint(p1.axis, t, en, r2, r3);
  }

  /** A poll keeps the enable and direction that retargeting chose, and so the levels Set_EN_DIR wrote for them. */
  lemma PollKeepsDrive(a: Axis, t: int, en: Control, readings: seq<Byte>)
    requires 0 <= t < 65536
    ensures var p := Polled(a, t, en, readings).axis;
      p.en == Retargeted(a, t, en).en && p.dir == Retargeted(a, t, en).dir
      && p.enPin == a.enPin && p.dirPin == a.dirPin && p.pulPin == a.pulPin && p.target == t as real
  {
  }

  /** An axis armed but already done is retargeted and otherwise left alone: no pulse, no move, even away from its target. */
  lemma PollArmedDone(a: Axis, t: int, en: Control, readings: seq<Byte>)
    requires 0 <= t < 65536 && a.processFlag == 1 && a.state == 1
    ensures Polled(a, t, en, readings) == Poll(Retargeted(a, t, en), 0)
  {
  }

  /** State is a completion flag: every operation on the record keeps it 0 or 1. */
  lemma StateStaysBinary(a: Axis, t: int, en: Control, readings: seq<Byte>)
    requires 0 <= t < 65536 && a.state <= 1
    ensures Initialised(a.enPin, a.dirPin, a.pulPin).state == 0
    ensures Retargeted(a, t, en).state <= 1
    ensures Polled(a, t, en, readings).axis.state <= 1
    ensures Armed(a).state == 0 && Stopped(a).state == a.state
  {
  }

  /** Eight circles are four thousand pulses. */
  lemma PulsesPerCircle()
    ensures PulseCount(8.0) == 4000 && PulseCount(1.0) == 500
  {
  }

  // ---------------------------------------------------------------------
  // The axis record as an object

  class Motor {
    var en: Control
    var dir: Control
    var current: real
    var target: real
    var enPin: nat
    var dirPin: nat
    var pulPin: nat
    var state: Byte
    var processFlag: Byte
    var printOnce: Byte

    function Value(): Axis
      reads this
    {
      Axis(en, dir, current, target, enPin, dirPin, pulPin, state, processFlag, printOnce)
    }

    /** A global motor struct before Motor_Init: all zero. */
    constructor ()
      ensures Value() == Axis(0, 0, 0.0, 0.0, 0, 0, 0, 0, 0, 0)
    {
      en, dir := 0, 0;
      current, target := 0.0, 0.0;
      enPin, dirPin, pulPin := 0, 0, 0;
      state, processFlag, printOnce := 0, 0, 0;
    }

    /** Motor_Init: reset the record and drive enable, direction and pulse lines low. */
    method Init(enGpio: nat, dirGpio: nat, pulGpio: nat, io: Gpio)
      requires io.Valid()
      modifies this, io.dev.levels
      ensures Value() == Initialised(enGpio, dirGpio, pulGpio)
      ensures forall p :: 0 <= p < io.dev.levels.Length ==>
        io.dev.levels[p] == if io.fdOpen && (p == enGpio || p == dirGpio || p == pulGpio) then false else old(io.dev.levels[p])
    {
      Reset(enGpio, dirGpio, pulGpio);
      ghost var before := io.dev.levels[..];
      var _ := io.Write(enPin, Disable);
      var _ := io.Write(dirPin, Forward);
      var _ := io.Write(pulPin, 0);
      WrittenLowThree(before, enGpio, dirGpio, pulGpio);
      assert forall p :: 0 <= p < io.dev.levels.Length ==> io.dev.levels[p] == io.dev.levels[..][p];
    }

    /** The field assignments of Motor_Init. */
    method Reset(enGpio: nat, dirGpio: nat, pulGpio: nat)
      modifies this
      ensures Value() == Initialised(enGpio, dirGpio, pulGpio)
    {
      en := Disable;
      dir := Forward;
      current := 0.0;
      target := 0.0;
      enPin := enGpio;
      dirPin := dirGpio;
      pulPin := pulGpio;
      state := 0;
      processFlag := 0;
      printOnce := 0;
    }

    /** Set_EN_DIR: write the enable and direction fields to their lines. */
    method SetEnDir(io: Gpio)
      requires io.Valid()
      modifies io.dev.levels
      ensures forall p :: 0 <= p < io.dev.levels.Length ==>
        io.dev.levels[p] == if !io.fdOpen then old(io.dev.levels[p])
                            else if p == dirPin then dir == Backward
                            else if p == enPin then en == Enable
                            else old(io.dev.levels[p])
    {
      var _ := io.Write(enPin, en);
      var _ := io.Write(dirPin, dir);
      assert forall p :: 0 <= p < io.dev.levels.Length ==> io.dev.levels[p] == io.dev.levels[..][p];
    }

    /** Set_MOTOR_Target_Circle_and_DIR */
    method SetTargetAndDir(t: int, enArg: Control)
      modifies this
      ensures Value() == Retargeted(old(Value()), t, enArg)
    {
      en := enArg;
      target := t as real;
      if current == target {
        en := Disable;
        state := 1;
      } else {
        dir := if current < target then Forward else Backward;
        en := Enable;
      }
    }

    /**
     * Motor_Run_Circle with the uint16_t target t. readings[i] is the value
     * of Process_Flag seen after the pulse of index i; a value other than 1
     * was stored by another writer and ends the run.
     */
    method Run(t: int, enArg: Control, io: Gpio, readings: seq<Byte>)
      requires 0 <= t < 65536 && io.Valid()
      modifies this, io`toggles, io.shadow, io.dev.levels
      ensures Value() == Polled(old(Value()), t, enArg, readings).axis
      ensures io.toggles == old(io.toggles) + Repeat(pulPin, Polled(old(Value()), t, enArg, readings).pulses)
      ensures io.shadow[..] == FlippedN(old(io.shadow[..]), pulPin, Polled(old(Value()), t, enArg, readings).pulses)
      ensures forall p :: 0 <= p < PinCount && p != enPin && p != dirPin && p != pulPin ==> io.dev.levels[p] == old(io.dev.levels[p])
      ensures io.fdOpen && pulPin < PinCount && Polled(old(Value()), t, enArg, readings).pulses > 0 ==> io.dev.levels[pulPin] == io.shadow[pulPin]
      ensures io.fdOpen && dirPin < PinCount && dirPin != pulPin ==> io.dev.levels[dirPin] == (dir == Backward)
      ensures io.fdOpen && enPin < PinCount && enPin != pulPin && enPin != dirPin ==> io.dev.levels[enPin] == (en == Enable)
    {
      ghost var a := Value();
      SetTargetAndDir(t, enArg);
      SetEnDir(io);
      RunLineIsDistance(a, t, enArg);
      Drive(io, readings);
    }

    /** The body of Motor_Run_Circle after Set_EN_DIR: the print-once note, the pulse train, or nothing. */
    method Drive(io: Gpio, readings: seq<Byte>)
      requires io.Valid() && RunLine(Value()) >= 0.0
      modifies this, io`toggles, io.shadow, io.dev.levels
      ensures Value() == Stepped(old(Value()), readings).axis
      ensures io.toggles == old(io.toggles) + Repeat(pulPin, Stepped(old(Value()), readings).pulses)
      ensures io.shadow[..] == FlippedN(old(io.shadow[..]), pulPin, Stepped(old(Value()), readings).pulses)
      ensures forall p :: 0 <= p < PinCount && p != pulPin ==> io.dev.levels[p] == old(io.dev.levels[p])
      ensures io.fdOpen && pulPin < PinCount && Stepped(old(Value()), readings).pulses > 0 ==> io.dev.levels[pulPin] == io.shadow[pulPin]
    {
      ghost var b := Value();
      ghost var p := Stepped(b, readings);
      var runLine := 0.0;
      if dir == Forward {
        runLine := target - current;
      } else if dir == Backward {
        runLine := -(target - current);
      }
      assert runLine == RunLine(b);

      if processFlag == 0 && printOnce == 0 {
        printOnce := 1;
        assert p == Poll(b.(printOnce := 1), 0);
      } else if processFlag == 1 && state == 0 {
        var pulses := PulseCount(runLine);
        var c := io.Pulses(pulPin, pulses, readings);
        if c < pulses {
          processFlag := Observed(readings, c);
          current := if dir == Forward then current + c as real * Step else current - c as real * Step;
          assert p == Poll(b.(processFlag := Observed(readings, c), current := Moved(b, c)), c + 1);
        } else {
          current := target;
          state := 1;
          processFlag := 0;
          printOnce := 0;
          assert p == Poll(b.(current := b.target, state := 1, processFlag := 0, printOnce := 0), pulses);
        }
      } else {
        assert p == Poll(b, 0);
      }
    }

    /** STOP_MOTOR: withdraw the arm flag and drive the enable line low. */
    method Stop(io: Gpio)
      requires io.Valid()
      modifies this, io.dev.levels
      ensures Value() == Stopped(old(Value()))
      ensures io.dev.levels[..] == if io.fdOpen then Written(old(io.dev.levels[..]), enPin, false) else old(io.dev.levels[..])
    {
      processFlag := 0;
      en := Disable;
      var _ := io.Write(enPin, Disable);
    }

    /** Begin_Motor_flag */
    method Begin()
      modifies this
      ensures Value() == Armed(old(Value()))
    {
      processFlag := 1;
      state := 0;
    }
  }

  // ---------------------------------------------------------------------
  // The four axes, their global targets and the scripted sequence

  /** The targets My_Motor_process sets for A, B, C and D, one row per step. */
  const Waypoints: seq<seq<real>> := [
    [0.0, 0.0, 5.0, 0.0],
    [8.0, 9.0, 10.0, 5.0],
    [5.0, 10.5, 8.0, 10.0],
    [7.0, 10.0, 10.0, 15.0],
    [5.0, 10.5, 8.0, 20.0],
    [0.0, 0.0, 0.0, 0.0]
  ]

  /** Set_Motor_Target on the table: a valid index sets the global and the record target and clears State. */
  function TargetSet(ts: Table, k: int, v: real): (r: Table)
    requires WellFormed(ts)
    ensures WellFormed(r)
  {
    if 0 <= k < AxisCount then
      Table(ts.targets[k := v], ts.axes[k := ts.axes[k].(target := v, state := 0)])
    else ts
  }

  /** One waypoint row, set axis by axis in the order A, B, C, D. */
  function WaypointApplied(ts: Table, w: seq<real>): (r: Table)
    requires WellFormed(ts) && |w| == AxisCount
    ensures WellFormed(r)
  {
    TargetSet(TargetSet(TargetSet(TargetSet(ts, MotorA, w[0]), MotorB, w[1]), MotorC, w[2]), MotorD, w[3])
  }

  /** One call of My_Motor_process: the table and the cursor it leaves. */
  function ScriptStep(ts: Table, cursor: int): (r: (Table, int))
    requires WellFormed(ts)
    ensures WellFormed(r.0)
  {
    if 0 <= cursor < |Waypoints| then (WaypointApplied(ts, Waypoints[cursor]), cursor + 1)
    else (ts, cursor)
  }

  /** n calls of My_Motor_process. */
  function ScriptSteps(ts: Table, cursor: int, n: nat): (r: (Table, int))
    requires WellFormed(ts)
    ensures WellFormed(r.0)
  {
    if n == 0 then (ts, cursor)
    else
      var prev := ScriptSteps(ts, cursor, n - 1);
      ScriptStep(prev.0, prev.1)
  }

  /** Begin_Motor_flag on one axis of the table. */
  function AxisArmed(ts: Table, k: nat): (r: Table)
    requires WellFormed(ts) && k < AxisCount
    ensures WellFormed(r)
  {
    Table(ts.targets, ts.axes[k := Armed(ts.axes[k])])
  }

  /** Every axis armed, no target touched. */
  function AllArmed(ts: Table): (r: Table)
    requires WellFormed(ts)
    ensures WellFormed(r)
  {
    AxisArmed(AxisArmed(AxisArmed(AxisArmed(ts, 0), 1), 2), 3)
  }

  /** Setting a target touches that axis's target and State only; every other axis and field is kept, and a bad index changes nothing. */
  lemma TargetSetTouchesOneAxis(ts: Table, k: int, v: real)
    requires WellFormed(ts)
    ensures var r := TargetSet(ts, k, v);
      && (0 <= k < AxisCount ==>
            r.targets[k] == v && r.axes[k].target == v && r.axes[k].state == 0
            && r.axes[k].processFlag == ts.axes[k].processFlag
            && r.axes[k].current == ts.axes[k].current && r.axes[k].en == ts.axes[k].en)
      && (forall j :: 0 <= j < AxisCount && j != k ==> r.targets[j] == ts.targets[j] && r.axes[j] == ts.axes[j])
      && (!(0 <= k < AxisCount) ==> r == ts)
  {
  }

  /** A step before the sixth installs the next waypoint as every axis's target, clears every State, and advances the cursor by one; afterwards a step changes nothing. */
  lemma ScriptStepMeaning(ts: Table, cursor: int)
    requires WellFormed(ts)
    ensures var r := ScriptStep(ts, cursor);
      if 0 <= cursor < |Waypoints| then
        && r.1 == cursor + 1 && r.0.targets == Waypoints[cursor]
        && forall k :: 0 <= k < AxisCount ==> r.0.axes[k] == ts.axes[k].(target := Waypoints[cursor][k], state := 0)
      else r == (ts, cursor)
  {
  }

  /** From a fresh cursor, n calls leave the cursor at min(n, 6) and the targets of the last waypoint reached. */
  lemma {:induction false} ScriptRunsInOrder(ts: Table, n: nat)
    requires WellFormed(ts)
    ensures var r := ScriptSteps(ts, 0, n);
      && r.1 == (if n < |Waypoints| then n else |Waypoints|)
      && (n == 0 ==> r.0 == ts)
      && (n > 0 ==> r.0.targets == Waypoints[r.1 - 1])
  {
    if n > 0 {
      ScriptRunsInOrder(ts, n - 1);
      var prev := ScriptSteps(ts, 0, n - 1);
      ScriptStepMeaning(prev.0, prev.1);
    }
  }

  /** After all six waypoints every target is back at zero, and further calls change nothing. */
  lemma ScriptEndsAtHome(ts: Table, n: nat)
    requires WellFormed(ts) && n >= |Waypoints|
    ensures ScriptSteps(ts, 0, n).0.targets == [0.0, 0.0, 0.0, 0.0]
    ensures ScriptStep(ScriptSteps(ts, 0, n).0, ScriptSteps(ts, 0, n).1) == ScriptSteps(ts, 0, n)
  {
    ScriptRunsInOrder(ts, n);
  }

  /** Every axis's State is 0 or 1. */
  predicate StatesAreFlags(ts: Table)
    requires WellFormed(ts)
  {
    forall k :: 0 <= k < AxisCount ==> ts.axes[k].state <= 1
  }

  /** Setting a target, arming, and a script step keep every State a 0/1 flag. */
  lemma TableStatesStayBinary(ts: Table, k: int, v: real, cursor: int)
    requires WellFormed(ts) && StatesAreFlags(ts)
    ensures StatesAreFlags(TargetSet(ts, k, v))
    ensures StatesAreFlags(AllArmed(ts))
    ensures StatesAreFlags(ScriptStep(ts, cursor).0)
  {
  }

  /** The four axes with their global targets, the pin backend, and My_Motor_process's static cursor. */
  class Axes {
    /** motor_data_A .. motor_data_D */
    const motors: seq<Motor>
    /** The pin backend they share. */
    const io: Gpio
    /** Target_Circle_A .. Target_Circle_D */
    var targets: seq<real>
    /** My_Motor_process's static process_count. */
    var processCount: int

    predicate Valid()
      reads this
    {
      && |motors| == AxisCount && |targets| == AxisCount
      && (forall i, j :: 0 <= i < j < AxisCount ==> motors[i] != motors[j])
      && 0 <= processCount <= |Waypoints|
      && io.Valid()
    }

    /** The abstract value: the global targets and the four records. */
    function Snapshot(): (ts: Table)
      requires |motors| == AxisCount
      reads this, motors
      ensures WellFormed(ts) == (|targets| == AxisCount)
    {
      Table(targets, [motors[0].Value(), motors[1].Value(), motors[2].Value(), motors[3].Value()])
    }

    /** The zero-initialised globals, with the device not yet opened. */
    constructor (dev: GpioDriver.Device)
      requires dev.Valid()
      ensures Valid() && processCount == 0 && !io.fdOpen && io.dev == dev
      ensures Snapshot() == Table([0.0, 0.0, 0.0, 0.0], Repeat4(Axis(0, 0, 0.0, 0.0, 0, 0, 0, 0, 0, 0)))
    {
      var a := new Motor();
      var b := new Motor();
      var c := new Motor();
      var d := new Motor();
      motors := [a, b, c, d];
      io := new Gpio(dev);
      targets := [0.0, 0.0, 0.0, 0.0];
      processCount := 0;
    }

    /** Set_Motor_Target */
    method SetMotorTarget(index: int, value: real)
      requires Valid()
      modifies this`targets, motors
      ensures Valid()
      ensures Snapshot() == TargetSet(old(Snapshot()), index, value)
    {
      if 0 <= index < AxisCount {
        targets := targets[index := value];
        var m := motors[index];
        m.target := value;
        m.state := 0;
      }
    }

    /** My_Motor_process: install the waypoint under the cursor and advance it; nothing once all six are done. */
    method MyMotorProcess()
      requires Valid()
      modifies this`targets, this`processCount, motors
      ensures Valid()
      ensures (Snapshot(), processCount) == ScriptStep(old(Snapshot()), old(processCount))
    {
      if processCount < |Waypoints| {
        SetWaypoint(Waypoints[processCount]);
        processCount := processCount + 1;
      }
    }

    /** The four Set_Motor_Target calls of one step, A to D. */
    method SetWaypoint(w: seq<real>)
      requires Valid() && |w| == AxisCount
      modifies this`targets, motors
      ensures Valid()
      ensures Snapshot() == WaypointApplied(old(Snapshot()), w)
    {
      ghost var t0 := Snapshot();
      SetMotorTarget(MotorA, w[0]);
      SetMotorTarget(MotorB, w[1]);
      ghost var t2 := Snapshot();
      SetMotorTarget(MotorC, w[2]);
      assert Snapshot() == TargetSet(t2, MotorC, w[2]);
      SetMotorTarget(MotorD, w[3]);
    }

    /** Begin_Motor_flag on axis k. */
    method Arm(k: nat)
      requires Valid() && k < AxisCount
      modifies motors[k]
      ensures Valid()
      ensures Snapshot() == AxisArmed(old(Snapshot()), k)
    {
      motors[k].Begin();
    }

    /** Begin_Motor_flag on A, B, C and D in turn. */
    method ArmAll()
      requires Valid()
      modifies motors
      ensures Valid()
      ensures Snapshot() == AllArmed(old(Snapshot()))
    {
      Arm(MotorA);
      Arm(MotorB);
      Arm(MotorC);
      Arm(MotorD);
    }

    /**
     * One iteration of motor task k: run axis k towards its global target,
     * which reaches the axis through the uint16_t parameter.
     */
    method PollAxis(k: nat, readings: seq<Byte>)
      requires Valid() && k < AxisCount && -1.0 < targets[k] < 65536.0
      modifies motors[k], io`toggles, io.shadow, io.dev.levels
      ensures Valid()
      ensures var ts := old(Snapshot());
        Snapshot() == Table(ts.targets, ts.axes[k := Polled(ts.axes[k], ToUint16(ts.targets[k]), Enable, readings).axis])
      ensures var a := old(Snapshot()).axes[k];
        var P := Polled(a, ToUint16(old(targets[k])), Enable, readings);
        && io.toggles == old(io.toggles) + Repeat(a.pulPin, P.pulses)
        && io.shadow[..] == FlippedN(old(io.shadow[..]), a.pulPin, P.pulses)
        && (forall p :: 0 <= p < PinCount && p != a.enPin && p != a.dirPin && p != a.pulPin ==> io.dev.levels[p] == old(io.dev.levels[p]))
        && (io.fdOpen && a.pulPin < PinCount && P.pulses > 0 ==> io.dev.levels[a.pulPin] == io.shadow[a.pulPin])
        && (io.fdOpen && a.dirPin < PinCount && a.dirPin != a.pulPin ==> io.dev.levels[a.dirPin] == (P.axis.dir == Backward))
        && (io.fdOpen && a.enPin < PinCount && a.enPin != a.pulPin && a.enPin != a.dirPin ==> io.dev.levels[a.enPin] == (P.axis.en == Enable))
      ensures var a := old(Snapshot()).axes[k];
        a.enPin == PinsOf(k).en && a.dirPin == PinsOf(k).dir && a.pulPin == PinsOf(k).pul ==>
          forall j :: 0 <= j < AxisCount && j != k ==>
            && io.dev.levels[PinsOf(j).en] == old(io.dev.levels[PinsOf(j).en])
            && io.dev.levels[PinsOf(j).dir] == old(io.dev.levels[PinsOf(j).dir])
            && io.dev.levels[PinsOf(j).pul] == old(io.dev.levels[PinsOf(j).pul])
    {
      var m := motors[k];
      ghost var a := m.Value();
      assert a == Snapshot().axes[k];
      ghost var P := Polled(a, ToUint16(targets[k]), Enable, readings);
      m.Run(ToUint16(targets[k]), Enable, io, readings);
      assert m.Value() == P.axis;
    }

    /** motor_io_init: open the device, then initialise A..D on their pin triples. */
    method IoInit(openOk: bool) returns (r: int)
      requires Valid()
      modifies io`fdOpen, motors, io.dev.levels
      ensures Valid()
      ensures r == (if openOk then 0 else -1) && io.fdOpen == openOk
      ensures openOk ==> forall k :: 0 <= k < AxisCount ==>
        Snapshot().axes[k] == Initialised(PinsOf(k).en, PinsOf(k).dir, PinsOf(k).pul)
      ensures openOk ==> forall p :: 0 <= p < PinCount ==> !io.dev.levels[p]
      ensures openOk ==> Snapshot().targets == old(Snapshot()).targets
      ensures !openOk ==> Snapshot() == old(Snapshot()) && io.dev.levels[..] == old(io.dev.levels[..])
    {
      r := io.Open(openOk);
      if r < 0 {
        return -1;
      }
      motors[0].Init(0, 1, 2, io);
      motors[1].Init(3, 4, 5, io);
      motors[2].Init(6, 7, 8, io);
      motors[3].Init(9, 10, 11, io);
    }

    /** motor_cleanup: stop A..D, then close the device, which leaves every line low if it was open. */
    method Cleanup()
      requires Valid()
      modifies motors, io`fdOpen, io.dev.levels
      ensures Valid() && !io.fdOpen
      ensures var ts := old(Snapshot());
        Snapshot() == Table(ts.targets, [Stopped(ts.axes[0]), Stopped(ts.axes[1]), Stopped(ts.axes[2]), Stopped(ts.axes[3])])
      ensures old(io.fdOpen) ==> forall p :: 0 <= p < PinCount ==> !io.dev.levels[p]
      ensures !old(io.fdOpen) ==> io.dev.levels[..] == old(io.dev.levels[..])
    {
      motors[0].Stop(io);
      motors[1].Stop(io);
      motors[2].Stop(io);
      motors[3].Stop(io);
      io.Close();
    }
  }

  function Repeat4(a: Axis): seq<Axis>
  {
    [a, a, a, a]
  }
}

=== FILE: motor_defs.dfy ===
/**
 * Constants and layout shared by the motor engine: the axis numbers, the
 * per-axis pin indices of the pin backend, the Control encoding and the
 * integer widths of the axis record (motor.h).
 */
module MotorDefs {

  /** uint8_t: the width of State, Process_Flag and Pro_flag_printf_once. */
  type Byte = x: int | 0 <= x < 256

  /** The Control enum. Its four names share two encodings. */
  type Control = x: int | 0 <= x <= 1

  const Forward: Control := 0
  const Backward: Control := 1
  const Enable: Control := 1
  const Disable: Control := 0

  /** Axis numbers, as accepted by Set_Motor_Target. */
  const MotorA: int := 0
  const MotorB: int := 1
  const MotorC: int := 2
  const MotorD: int := 3
  const AxisCount: nat := 4

  /** Number of pins behind the pin backend (and of gpio_toggle's shadow). */
  const PinCount: nat := 12

  /** Circles travelled by one pulse. */
  const Step: real := 0.002

  /** The gpio_index_t constants, one triple (enable, direction, pulse) per axis. */
  datatype AxisPins = AxisPins(en: nat, dir: nat, pul: nat)

  const PinTable: seq<AxisPins> := [
    AxisPins(0, 1, 2),     // A: GPIO3_B5, GPIO3_B4, GPIO3_A2
    AxisPins(3, 4, 5),     // B: GPIO3_B0, GPIO3_C3, GPIO3_D3
    AxisPins(6, 7, 8),     // C: GPIO3_B6, GPIO3_A6, GPIO3_A4
    AxisPins(9, 10, 11)    // D: GPIO3_A5, GPIO3_B1, GPIO3_A7
  ]

  /** The pad label written beside each gpio_index_t constant: (bank letter, pin). */
  const PinLabels: seq<(char, nat)> := [
    ('B', 5), ('B', 4), ('A', 2),
    ('B', 0), ('C', 3), ('D', 3),
    ('B', 6), ('A', 6), ('A', 4),
    ('A', 5), ('B', 1), ('A', 7)
  ]

  /** The three pins of one axis, each a distinct flat index. */
  function PinsOf(k: nat): (p: AxisPins)
    requires k < AxisCount
    ensures p.en == 3 * k && p.dir == 3 * k + 1 && p.pul == 3 * k + 2
  {
    PinTable[k]
  }

  /** Every pin index belongs to exactly one axis and one role, so all twelve are distinct and below the toggle bound. */
  lemma PinLayoutIsAPartition()
    ensures forall k :: 0 <= k < AxisCount ==> PinsOf(k).pul < PinCount
    ensures forall p :: 0 <= p < PinCount ==>
      var k := p / 3;
      k < AxisCount && (p == PinsOf(k).en || p == PinsOf(k).dir || p == PinsOf(k).pul)
    ensures forall j, k :: 0 <= j < k < AxisCount ==> PinsOf(j).pul < PinsOf(k).en
  {
  }

  /** The axis numbers are exactly the indices 0..3 that address an axis. */
  lemma AxisNumbersAreTheValidIndices()
    ensures MotorA == 0 && MotorB == 1 && MotorC == 2 && MotorD == 3
    ensures |{MotorA, MotorB, MotorC, MotorD}| == AxisCount
  {
  }

  /** Direction and enable are written to pins as 0/1: Forward and Disable are 0, Backward and Enable are 1. */
  lemma ControlEncoding()
    ensures Forward == Disable == 0 && Backward == Enable == 1
  {
  }

  /** Truncation of a C float toward zero. */
  function TruncToZero(x: real): (r: int)
    ensures x >= 0.0 ==> r as real <= x < r as real + 1.0
    ensures x < 0.0 ==> r as real - 1.0 < x <= r as real
  {
    if x >= 0.0 then x.Floor else -((-x).Floor)
  }

  /**
   * The implicit float-to-uint16_t conversion at a call of
   * Set_MOTOR_Target_Circle_and_DIR or Motor_Run_Circle. C leaves it
   * undefined unless the truncated value fits in 0..65535.
   */
  function ToUint16(x: real): (r: int)
    requires -1.0 < x < 65536.0
    ensures 0 <= r < 65536
    ensures x >= 0.0 ==> r as real <= x < r as real + 1.0
    ensures x < 0.0 ==> r == 0
  {
    TruncToZero(x)
  }

  /** A fractional target loses its fraction: 10.5 reaches the axis as 10. */
  lemma FractionalTargetTruncated()
    ensures ToUint16(10.5) == 10
    ensures ToUint16(8.0) == 8
  {
  }
}

=== FILE: pwm.dfy ===
/**
 * The PWM output of task.c: the clamped duty and frequency setters over
 * the two statics current_period_ns and current_duty_percent, the sysfs
 * writes they issue, and the status query.
 */
module Pwm {

  // ---------------------------------------------------------------------
  // Arithmetic

  const NsPerSecond: int := 1000000000
  const MinFreqHz: int := 1
  const MaxFreqHz: int := 100000

  /** The duty percent after the two range checks. */
  function ClampPercent(pct: int): (r: int)
    ensures 0 <= r <= 100
    ensures 0 <= pct <= 100 ==> r == pct
    ensures pct < 0 ==> r == 0
    ensures pct > 100 ==> r == 100
  {
    if pct < 0 then 0 else if pct > 100 then 100 else pct
  }

  /** The frequency after the two range checks. */
  function ClampFreq(freq: int): (r: int)
    ensures MinFreqHz <= r <= MaxFreqHz
    ensures MinFreqHz <= freq <= MaxFreqHz ==> r == freq
    ensures freq < MinFreqHz ==> r == MinFreqHz
    ensures freq > MaxFreqHz ==> r == MaxFreqHz
  {
    if freq < MinFreqHz then MinFreqHz else if freq > MaxFreqHz then MaxFreqHz else freq
  }

  /** The period of a clamped frequency, in whole nanoseconds. */
  function PeriodNs(freq: int): (p: int)
    requires MinFreqHz <= freq <= MaxFreqHz
    ensures p * freq <= NsPerSecond < (p + 1) * freq
    ensures 10000 <= p <= NsPerSecond
  {
    NsPerSecond / freq
  }

  /** Duty time for a percent of the period, computed without overflow. */
  function DutyNs(period: int, pct: int): (d: int)
    requires period >= 0 && 0 <= pct <= 100
    ensures d * 100 <= period * pct < (d + 1) * 100
    ensures 0 <= d <= period
    ensures pct == 0 ==> d == 0
    ensures pct == 100 ==> d == period
  {
    period * pct / 100
  }

  /** Signed int overflow is undefined in C; modelled as the two's-complement wrap the target compiler produces. */
  function Wrap32(x: int): (r: int)
    ensures -0x8000_0000 <= r < 0x8000_0000
    ensures -0x8000_0000 <= x < 0x8000_0000 ==> r == x
  {
    (x + 0x8000_0000) % 0x1_0000_0000 - 0x8000_0000
  }

  /** C's int division, which truncates toward zero. */
  function CDiv(a: int, b: int): (q: int)
    requires b > 0
    ensures a >= 0 ==> q == a / b
    ensures a < 0 ==> q <= 0 && q * b >= a > (q - 1) * b
  {
    if a >= 0 then a / b else -((-a) / b)
  }

  /** (current_period_ns * duty_percent) / 100 as written: an int product, whose overflow past 2^31 - 1 is undefined in C and modelled as a wrap. */
  function DutyNsAsWritten(period: int, pct: int): int
  {
    CDiv(Wrap32(period * pct), 100)
  }

  /** Below the overflow bound the expression as written is the intended duty. */
  lemma AsWrittenAgreesBelowOverflow(period: int, pct: int)
    requires period >= 0 && 0 <= pct <= 100 && period * pct < 0x8000_0000
    ensures DutyNsAsWritten(period, pct) == DutyNs(period, pct)
  {
  }

  /** At 1 Hz (period 10^9 ns) a 3% duty overflows: the written duty is negative instead of 3*10^7 ns. */
  lemma DutyOverflowExample()
    ensures PeriodNs(ClampFreq(1)) == 1000000000
    ensures DutyNsAsWritten(1000000000, 3) == -12949672
    ensures DutyNs(1000000000, 3) == 30000000
  {
    assert Wrap32(3000000000) == -1294967296;
  }

  /**
   * The guard "duty_ns > current_period_ns" can never fire for any period a
   * clamped frequency yields: not with the intended arithmetic, and not with
   * the wrapped product either.
   */
  lemma DutyGuardUnreachable(period: int, pct: int)
    requires 10000 <= period <= NsPerSecond && 0 <= pct <= 100
    ensures DutyNs(period, pct) <= period
    ensures DutyNsAsWritten(period, pct) <= period
  {
    var x := period * pct;
    assert x <= period * 100 by { MulLeftMono(period, pct, 100); }
    if x < 0x8000_0000 {
      AsWrittenAgreesBelowOverflow(period, pct);
    } else {
      var w := Wrap32(x);
      assert CDiv(w, 100) <= 21474836;
    }
  }

  lemma MulLeftMono(a: int, b: int, c: int)
    requires a >= 0 && b <= c
    ensures a * b <= a * c
  {
    assert a * c - a * b == a * (c - b);
  }

  // ---------------------------------------------------------------------
  // The sysfs writes and the PWM state

  /** The three attribute files of pwmchip0/pwm0 written with system("echo ..."). */
  datatype Attr = Period | DutyCycle | Enable

  /** One "echo value > attr" command. */
  datatype Echo = Echo(attr: Attr, value: int)

  class Pwm {
    /** current_period_ns */
    var periodNs: int
    /** current_duty_percent */
    var dutyPercent: int
    /** The echo commands issued, in order. */
    var log: seq<Echo>

    /** The period always comes from a clamped frequency, the percent from a clamped duty. */
    predicate Valid()
      reads this
    {
      10000 <= periodNs <= NsPerSecond && 0 <= dutyPercent <= 100
    }

    /** The statics' initial values: 1 kHz, 0%. */
    constructor ()
      ensures Valid() && periodNs == 1000000 && dutyPercent == 0 && log == []
    {
      periodNs := 1000000;
      dutyPercent := 0;
      log := [];
    }

    /**
     * set_pwm_duty_cycle: writeOk says whether the duty_cycle write succeeds;
     * only then is the percent stored. The duty written is the int expression
     * as the source computes it, which is the intended duty unless the
     * product overflows.
     */
    method SetDutyCycle(pct: int, writeOk: bool) returns (r: int)
      requires Valid()
      modifies this`dutyPercent, this`log
      ensures Valid()
      ensures log == old(log) + [Echo(DutyCycle, DutyNsAsWritten(periodNs, ClampPercent(pct)))]
      ensures periodNs * ClampPercent(pct) < 0x8000_0000 ==> log[|log| - 1].value == DutyNs(periodNs, ClampPercent(pct))
      ensures writeOk ==> r == 0 && dutyPercent == ClampPercent(pct)
      ensures !writeOk ==> r == -1 && dutyPercent == old(dutyPercent)
    {
      var percent := pct;
      if percent < 0 {
        percent := 0;
      }
      if percent > 100 {
        percent := 100;
      }
      var dutyNs := CDiv(Wrap32(periodNs * percent), 100);
      DutyGuardUnreachable(periodNs, percent);
      if dutyNs > periodNs {
        dutyNs := periodNs;
        percent := 100;
      }
      if periodNs * percent < 0x8000_0000 {
        AsWrittenAgreesBelowOverflow(periodNs, percent);
      }
      log := log + [Echo(DutyCycle, dutyNs)];
      if writeOk {
        dutyPercent := percent;
      } else {
        return -1;
      }
      return 0;
    }

    /**
     * set_pwm_frequency: disable the output, write the new period, then the
     * duty for the stored percent, then re-enable. periodOk and dutyOk say
     * whether those two writes succeed.
     */
    method SetFrequency(freq: int, periodOk: bool, dutyOk: bool) returns (r: int)
      requires Valid()
      modifies this`periodNs, this`dutyPercent, this`log
      ensures Valid() && dutyPercent == old(dutyPercent)
      ensures var p := PeriodNs(ClampFreq(freq));
        && r == (if periodOk && dutyOk then 0 else -1)
        && periodNs == (if periodOk then p else old(periodNs))
        && log == old(log) + FrequencyEchoes(p, DutyNsAsWritten(p, dutyPercent), periodOk, dutyOk)
      ensures LastEnable(log) == if periodOk && !dutyOk then 0 else 1
    {
      var f := freq;
      if f < 1 {
        f := 1;
      }
      if f > 100000 {
        f := 100000;
      }
      assert f == ClampFreq(freq);
      var newPeriod := 1000000000 / f;
      assert newPeriod == PeriodNs(f);
      ghost var before := log;
      ghost var d := DutyNsAsWritten(newPeriod, dutyPercent);
      FrequencyChangeLeavesOutputEnabled(before, newPeriod, d, periodOk, dutyOk);
      log := log + [Echo(Enable, 0)];
      log := log + [Echo(Period, newPeriod)];
      if !periodOk {
        log := log + [Echo(Enable, 1)];
        return -1;
      }
      periodNs := newPeriod;
      var percent := dutyPercent;
      var dutyNs := CDiv(Wrap32(periodNs * percent), 100);
      DutyGuardUnreachable(periodNs, percent);
      if dutyNs > periodNs {
        dutyNs := periodNs;
        percent := 100;
      }
      dutyPercent := percent;
      log := log + [Echo(DutyCycle, dutyNs)];
      if !dutyOk {
        return -1;
      }
      log := log + [Echo(Enable, 1)];
      r := 0;
    }

    /**
     * get_pwm_status: the frequency, period, percent and duty it reports. The
     * duty is the int expression as written; it is the intended duty, within
     * the period, whenever the product fits in an int.
     */
    method GetStatus() returns (freqHz: int, period: int, pct: int, dutyNs: int)
      requires Valid()
      ensures period == periodNs && pct == dutyPercent
      ensures MinFreqHz <= freqHz <= MaxFreqHz && freqHz * period <= NsPerSecond < (freqHz + 1) * period
      ensures dutyNs == DutyNsAsWritten(period, pct) && dutyNs <= period
      ensures period * pct < 0x8000_0000 ==> dutyNs == DutyNs(period, pct) && 0 <= dutyNs
    {
      dutyNs := CDiv(Wrap32(periodNs * dutyPercent), 100);
      freqHz := 1000000000 / periodNs;
      period := periodNs;
      pct := dutyPercent;
      DutyGuardUnreachable(period, pct);
      if period * pct < 0x8000_0000 {
        AsWrittenAgreesBelowOverflow(period, pct);
      }
    }
  }

  /** The echo commands one frequency change issues, given the outcomes of its period and duty writes. */
  function FrequencyEchoes(p: int, d: int, periodOk: bool, dutyOk: bool): seq<Echo>
  {
    if !periodOk then [Echo(Enable, 0), Echo(Period, p), Echo(Enable, 1)]
    else if !dutyOk then [Echo(Enable, 0), Echo(Period, p), Echo(DutyCycle, d)]
    else [Echo(Enable, 0), Echo(Period, p), Echo(DutyCycle, d), Echo(Enable, 1)]
  }

  /** The output is left disabled only when the period write succeeded and the duty write after it failed. */
  lemma FrequencyChangeLeavesOutputEnabled(before: seq<Echo>, p: int, d: int, periodOk: bool, dutyOk: bool)
    ensures LastEnable(before + FrequencyEchoes(p, d, periodOk, dutyOk)) == if periodOk && !dutyOk then 0 else 1
  {
    var x := before + [Echo(Enable, 0)];
    LastEnableAppend(before, Echo(Enable, 0));
    LastEnableAppend(x, Echo(Period, p));
    var y := x + [Echo(Period, p)];
    assert y == before + [Echo(Enable, 0), Echo(Period, p)];
    if !periodOk {
      LastEnableAppend(y, Echo(Enable, 1));
      assert y + [Echo(Enable, 1)] == before + FrequencyEchoes(p, d, periodOk, dutyOk);
    } else if !dutyOk {
      LastEnableAppend(y, Echo(DutyCycle, d));
      assert y + [Echo(DutyCycle, d)] == before + FrequencyEchoes(p, d, periodOk, dutyOk);
    } else {
      var z := y + [Echo(DutyCycle, d)];
      LastEnableAppend(z, Echo(Enable, 1));
      assert z + [Echo(Enable, 1)] == before + FrequencyEchoes(p, d, periodOk, dutyOk);
    }
  }

  /** The value of the last enable write in a log, or -1 if there is none. */
  function LastEnable(log: seq<Echo>): int
  {
    if log == [] then -1
    else if log[|log| - 1].attr == Enable then log[|log| - 1].value
    else LastEnable(log[..|log| - 1])
  }

  lemma LastEnableAppend(log: seq<Echo>, e: Echo)
    ensures LastEnable(log + [e]) == if e.attr == Enable then e.value else LastEnable(log)
  {
    assert (log + [e])[..|log|] == log;
  }
}

=== FILE: tasks.dfy ===
/**
 * The command side of task.c: the thread priority table, the console
 * line grammar (reserved commands and the comma-separated target tokens),
 * and one round of the process task that gates the waypoint sequence on
 * axes A, B and C finishing.
 */
module Tasks {
  import opened MotorDefs
  import opened CStrings
  import opened Motor
  import Telegram
  import Pwm

  datatype Option<T> = None | Some(v: T)

  // ---------------------------------------------------------------------
  // Thread priorities

  /** get_task_priority: the SCHED_FIFO priority of each task index. */
  function Priority(index: int): (p: int)
    ensures 1 <= p <= 99
  {
    match index
    case 0 => 80  // motor A
    case 1 => 80  // motor B
    case 2 => 80  // motor C
    case 3 => 80  // motor D
    case 4 => 10  // print
    case 5 => 50  // console
    case 6 => 10  // process
    case 7 => 60  // serial
    case 8 => 40  // PWM
    case _ => 30
  }

  /** The four pulse executors share the top priority and preempt every other task; the serial task outranks the console, which outranks the PWM task, and printing and sequencing come last. */
  lemma MotorTasksPreemptOthers()
    ensures forall i :: 0 <= i < AxisCount ==> Priority(i) == 80
    ensures forall j :: !(0 <= j < AxisCount) ==> Priority(j) < 80
    ensures Priority(7) > Priority(5) > Priority(8) > Priority(9) > Priority(4) == Priority(6)
    ensures forall j :: j < 0 || j > 8 ==> Priority(j) == 30
  {
  }

  // ---------------------------------------------------------------------
  // Console tokens

  /** What one trimmed token asks for: set axis to value (arming it if '$' led), or nothing. */
  datatype Command = Assign(axis: nat, value: real, arm: bool) | Skip

  /** The upper limits the console enforces on axes A, B and C; D has none. */
  const Limits: seq<real> := [10.5, 9.0, 18.0]

  /** A console value after the per-axis upper clamp. */
  function Clamped(k: nat, v: real): real
  {
    if k < |Limits| && v > Limits[k] then Limits[k] else v
  }

  /** A value is kept exactly when it is within its axis's limit, and otherwise replaced by the limit; D is never clamped. */
  lemma ClampMeaning(k: nat, v: real)
    ensures k < |Limits| ==> Clamped(k, v) <= Limits[k] && (Clamped(k, v) == v <==> v <= Limits[k])
    ensures k < |Limits| && v > Limits[k] ==> Clamped(k, v) == Limits[k]
    ensures k >= |Limits| ==> Clamped(k, v) == v
  {
  }

  /** sscanf(s, ":%f"): a literal ':' and then the float conversion, which scan stands for. */
  function ScanColon(s: string, scan: string -> Option<real>): Option<real>
  {
    if |s| > 0 && s[0] == ':' then scan(s[1..]) else None
  }

  /**
   * The command of one trimmed token. A leading '$' arms; the axis letter
   * follows it (or starts the token) and ":%f" is matched right after the
   * letter. The letter is read as C reads it, so a token too short to hold
   * one sees the terminator, which names no axis.
   */
  function ParseToken(t: string, scan: string -> Option<real>): (c: Command)
    ensures c.Assign? ==> c.axis < AxisCount
    ensures c.Assign? ==> |t| > 0 && (c.arm <==> t[0] == '$')
    ensures c.Assign? && c.axis < |Limits| ==> c.value <= Limits[c.axis]
  {
    var arm := |t| > 0 && t[0] == '$';
    var p := if arm then 1 else 0;
    var motor := At(t, p);
    var rest := if p < |t| then t[p + 1..] else [];
    match ScanColon(rest, scan)
    case None => Skip
    case Some(v) =>
      if Telegram.IsAxisLetter(motor) then
        var k := Telegram.AxisOf(motor);
        Assign(k, Clamped(k, v), arm)
      else Skip
  }

  /** A token whose letter names an axis and whose number parses sets that axis; every other token is skipped. */
  lemma ParseTokenMeaning(t: string, scan: string -> Option<real>)
    ensures var arm := |t| > 0 && t[0] == '$';
      var p := if arm then 1 else 0;
      ParseToken(t, scan).Assign? <==>
        (p < |t| && Telegram.IsAxisLetter(t[p]) && ScanColon(t[p + 1..], scan).Some?)
    ensures var c := ParseToken(t, scan);
      c.Assign? ==>
        && t[if c.arm then 1 else 0] == "ABCD"[c.axis]
        && c.value == Clamped(c.axis, ScanColon(t[(if c.arm then 1 else 0) + 1..], scan).v)
  {
  }

  /** One console token applied to the table: Set_Motor_Target with the clamped value, then arming if '$' led. */
  function TokenApplied(ts: Table, tok: string, scan: string -> Option<real>): (r: Table)
    requires WellFormed(ts)
    ensures WellFormed(r)
  {
    match ParseToken(Trim(tok), scan)
    case Skip => ts
    case Assign(k, v, arm) =>
      var moved := TargetSet(ts, k, v);
      if arm then AxisArmed(moved, k) else moved
  }

  /** The tokens of a line applied in order. */
  function TokensApplied(ts: Table, toks: seq<string>, scan: string -> Option<real>): (r: Table)
    requires WellFormed(ts)
    ensures WellFormed(r)
    decreases |toks|
  {
    if toks == [] then ts
    else TokenApplied(TokensApplied(ts, toks[..|toks| - 1], scan), toks[|toks| - 1], scan)
  }

  /** Applying a line's tokens is applying its first part, then the rest. */
  lemma {:induction false} TokensAppliedConcat(ts: Table, a: seq<string>, b: seq<string>, scan: string -> Option<real>)
    requires WellFormed(ts)
    ensures TokensApplied(ts, a + b, scan) == TokensApplied(TokensApplied(ts, a, scan), b, scan)
    decreases |b|
  {
    if b == [] {
      assert a + b == a;
    } else {
      var c, init, last := a + b, b[..|b| - 1], b[|b| - 1];
      assert c[..|c| - 1] == a + init && c[|c| - 1] == last;
      TokensAppliedConcat(ts, a, init, scan);
      calc {
        TokensApplied(ts, c, scan);
        TokenApplied(TokensApplied(ts, a + init, scan), last, scan);
        TokenApplied(TokensApplied(TokensApplied(ts, a, scan), init, scan), last, scan);
        TokensApplied(TokensApplied(ts, a, scan), b, scan);
      }
    }
  }

  /** A malformed token, or one naming no axis, is discarded on its own: the tokens around it act as if it were absent. */
  lemma SkippedTokenDiscardsOnlyItself(ts: Table, a: seq<string>, t: string, b: seq<string>, scan: string -> Option<real>)
    requires WellFormed(ts) && ParseToken(Trim(t), scan) == Skip
    ensures TokensApplied(ts, a + [t] + b, scan) == TokensApplied(ts, a + b, scan)
  {
    TokensAppliedConcat(ts, a + [t], b, scan);
    TokensAppliedConcat(ts, a, [t], scan);
    TokensAppliedConcat(ts, a, b, scan);
    assert TokensApplied(TokensApplied(ts, a, scan), [t], scan) == TokenApplied(TokensApplied(ts, a, scan), t, scan) by {
      assert [t][..0] == [];
    }
  }

  /** Does any token of the line start with '$' once trimmed? */
  predicate AnyDollar(toks: seq<string>)
  {
    exists i :: 0 <= i < |toks| && |Trim(toks[i])| > 0 && Trim(toks[i])[0] == '$'
  }

  /** Without a '$' token a line changes targets only: every axis keeps its Process_Flag and EN, and only clamped values reach the limited axes. */
  lemma {:induction false} UnarmedLineKeepsFlags(ts: Table, toks: seq<string>, scan: string -> Option<real>)
    requires WellFormed(ts) && !AnyDollar(toks)
    ensures forall k :: 0 <= k < AxisCount ==>
      TokensApplied(ts, toks, scan).axes[k].processFlag == ts.axes[k].processFlag
      && TokensApplied(ts, toks, scan).axes[k].en == ts.axes[k].en
    ensures forall k :: 0 <= k < |Limits| ==>
      TokensApplied(ts, toks, scan).targets[k] == ts.targets[k] || TokensApplied(ts, toks, scan).targets[k] <= Limits[k]
    decreases |toks|
  {
    if toks != [] {
      var init := toks[..|toks| - 1];
      assert forall i :: 0 <= i < |init| ==> init[i] == toks[i];
      UnarmedLineKeepsFlags(ts, init, scan);
      var last := toks[|toks| - 1];
      var c := ParseToken(Trim(last), scan);
      if c.Assign? {
        assert !c.arm;
        TargetSetTouchesOneAxis(TokensApplied(ts, init, scan), c.axis, c.value);
      }
    }
  }

  /** Two commas between three comma-free, non-empty pieces make exactly those three tokens. */
  lemma ThreeTokens(a: string, b: string, c: string)
    requires |a| > 0 && |b| > 0 && |c| > 0 && ',' !in a && ',' !in b && ',' !in c
    ensures Tokens(a + [','] + b + [','] + c, Comma) == [a, b, c]
  {
    assert a + [','] + b + [','] + c == a + [','] + (b + [','] + c);
    TokensOfJoin(a, ',', b + [','] + c, Comma);
    TokensOfJoin(b, ',', c, Comma);
    TokensOfRun(a, Comma);
    TokensOfRun(b, Comma);
    TokensOfRun(c, Comma);
  }

  lemma ExampleParseA(t: string, scan: string -> Option<real>)
    requires t == "$A:12" && scan("12") == Some(12.0)
    ensures Trim(t) == t && ParseToken(t, scan) == Assign(MotorA, 10.5, true)
  {
    TrimUnpadded(t);
    assert t[0] == '$' && At(t, 1) == 'A';
    assert ScanColon(t[2..], scan) == Some(12.0) by {
      assert t[2..][1..] == "12";
    }
  }

  lemma ExampleParseB(t: string, scan: string -> Option<real>)
    requires t == " B:3" && scan("3") == Some(3.0)
    ensures ParseToken(Trim(t), scan) == Assign(MotorB, 3.0, false)
  {
    var u := t[1..];
    TrimLeading(t);
    TrimUnpadded(u);
    assert u[0] != '$' && At(u, 0) == 'B';
    assert ScanColon(u[1..], scan) == Some(3.0) by {
      assert u[1..][1..] == "3";
    }
  }

  lemma ExampleParseE(t: string, scan: string -> Option<real>)
    requires t == "E:1"
    ensures Trim(t) == t && ParseToken(t, scan) == Skip
  {
    TrimUnpadded(t);
    assert t[0] != '$' && At(t, 0) == 'E';
  }

  /**
   * With a %f conversion that reads "12" and "3" as numbers, the line
   * "$A:12, B:3,E:1" sets A to its limit 10.5 and arms it, sets B to 3
   * without arming it, and drops the token for the unknown axis E.
   */
  lemma ConsoleExample(ts: Table, scan: string -> Option<real>, a: string, b: string, c: string)
    requires WellFormed(ts) && a == "$A:12" && b == " B:3" && c == "E:1"
    requires scan("12") == Some(12.0) && scan("3") == Some(3.0)
    ensures TokensApplied(ts, Tokens(a + [','] + b + [','] + c, Comma), scan)
      == Table(ts.targets[MotorA := 10.5][MotorB := 3.0],
               ts.axes[MotorA := Armed(ts.axes[MotorA].(target := 10.5, state := 0))]
                      [MotorB := ts.axes[MotorB].(target := 3.0, state := 0)])
  {
    ThreeTokens(a, b, c);
    ExampleApplied(ts, scan, [a, b, c]);
  }

  lemma ExampleApplied(ts: Table, scan: string -> Option<real>, toks: seq<string>)
    requires WellFormed(ts) && toks == ["$A:12", " B:3", "E:1"]
    requires scan("12") == Some(12.0) && scan("3") == Some(3.0)
    ensures TokensApplied(ts, toks, scan)
      == Table(ts.targets[MotorA := 10.5][MotorB := 3.0],
               ts.axes[MotorA := Armed(ts.axes[MotorA].(target := 10.5, state := 0))]
                      [MotorB := ts.axes[MotorB].(target := 3.0, state := 0)])
  {
    var r0 := TokenApplied(ts, toks[0], scan);
    var r1 := TokenApplied(r0, toks[1], scan);
    assert r0 == AxisArmed(TargetSet(ts, MotorA, 10.5), MotorA) by {
      ExampleParseA(toks[0], scan);
    }
    assert r1 == TargetSet(r0, MotorB, 3.0) by {
      ExampleParseB(toks[1], scan);
    }
    assert TokenApplied(r1, toks[2], scan) == r1 by {
      ExampleParseE(toks[2], scan);
    }
    TokensAppliedThree(ts, toks, scan);
  }

  /** Three tokens are applied one after the other. */
  lemma TokensAppliedThree(ts: Table, toks: seq<string>, scan: string -> Option<real>)
    requires WellFormed(ts) && |toks| == 3
    ensures TokensApplied(ts, toks, scan)
      == TokenApplied(TokenApplied(TokenApplied(ts, toks[0], scan), toks[1], scan), toks[2], scan)
  {
    var t1, t2 := toks[..1], toks[..2];
    assert TokensApplied(ts, t1, scan) == TokenApplied(ts, toks[0], scan) by {
      assert t1[..0] == [];
    }
    assert TokensApplied(ts, t2, scan) == TokenApplied(TokensApplied(ts, t1, scan), toks[1], scan) by {
      assert t2[..1] == t1;
    }
  }

  // ---------------------------------------------------------------------
  // Console lines

  /** The line the console works on: what fgets read, cut at the first newline. */
  function FirstLine(raw: string): (line: string)
    ensures line <= raw && '\n' !in line
    ensures |line| < |raw| ==> raw[|line|] == '\n'
  {
    raw[..TokenLen(raw, {'\n'})]
  }

  /** The console's reading of one line, tested in this order. */
  datatype Line =
    | Show                  // "@"
    | Duty(arg: string)     // "P:" prefix
    | Freq(arg: string)     // "F:" prefix
    | Status                // "PWM"
    | ArmAll                // "$"
    | Targets               // anything else: comma-separated tokens

  /** strncmp(line, "<c>:", 2) == 0 */
  predicate Prefixed(line: string, c: char)
  {
    |line| >= 2 && line[0] == c && line[1] == ':'
  }

  /** Each reserved form is recognised exactly by its own test, so the order of the tests decides nothing. */
  function Classify(line: string): (l: Line)
    ensures l == Show <==> line == "@"
    ensures l.Duty? <==> Prefixed(line, 'P')
    ensures l.Freq? <==> Prefixed(line, 'F')
    ensures l == Status <==> line == "PWM"
    ensures l == ArmAll <==> line == "$"
    ensures l.Duty? || l.Freq? ==> l.arg == line[2..]
  {
    if line == "@" then Show
    else if Prefixed(line, 'P') then Duty(line[2..])
    else if Prefixed(line, 'F') then Freq(line[2..])
    else if line == "PWM" then Status
    else if line == "$" then ArmAll
    else Targets
  }

  /** The separator of console tokens. */
  const Comma: set<char> := {','}

  /** The console flags shared with the print and process tasks. */
  class Flags {
    /** Printf_Flag: the print task shows the axes while it is 1. */
    var printFlag: int
    /** Process_continue_flag: set by "$", never cleared. */
    var processContinue: int
    /** Finish_flag: 1 while no sequence step is in flight. */
    var finish: int

    /** The globals' initial values. */
    constructor ()
      ensures printFlag == 1 && processContinue == 0 && finish == 1
    {
      printFlag := 1;
      processContinue := 0;
      finish := 1;
    }
  }

  /** The two trimming loops of the console: skip leading spaces, then cut trailing ones while the end is past the start. */
  method TrimToken(tok: string) returns (lo: nat, hi: nat)
    ensures lo <= hi <= |tok| && tok[lo..hi] == Trim(tok)
  {
    lo := 0;
    while lo < |tok| && tok[lo] == ' '
      invariant lo <= |tok|
      invariant forall i :: 0 <= i < lo ==> tok[i] == ' '
    {
      lo := lo + 1;
    }
    assert lo == LeadingSpaces(tok);
    hi := |tok|;
    while hi > lo + 1 && tok[hi - 1] == ' '
      invariant lo <= hi <= |tok|
      invariant forall i :: hi <= i < |tok| ==> tok[i] == ' '
    {
      hi := hi - 1;
    }
    var t := tok[lo..];
    assert |t| - (hi - lo) == TrailingSpaces(t) by {
      assert forall i :: hi - lo <= i < |t| ==> t[i] == tok[lo + i];
    }
    assert tok[lo..hi] == t[..hi - lo];
  }

  /** One pass of the token loop body: trim, read '$' and the letter, scan the number, clamp, set the target, arm. */
  method ApplyToken(ax: Axes, tok: string, scan: string -> Option<real>)
    requires ax.Valid()
    modifies ax`targets, ax.motors
    ensures ax.Valid()
    ensures ax.Snapshot() == TokenApplied(old(ax.Snapshot()), tok, scan)
  {
    var lo, hi := TrimToken(tok);
    var t := tok[lo..hi];
    var enable := false;
    var motor: char;
    var rest: string;
    if |t| > 0 && t[0] == '$' {
      enable := true;
      motor := At(t, 1);
      rest := if 1 < |t| then t[2..] else [];
    } else {
      motor := At(t, 0);
      rest := if 0 < |t| then t[1..] else [];
    }
    var value := ScanColon(rest, scan);
    if value.None? {
      return;  // format error: this token only
    }
    var v := value.v;
    var k: nat;
    if motor == 'A' {
      k := MotorA;
      if v > 10.5 {
        v := 10.5;
      }
    } else if motor == 'B' {
      k := MotorB;
      if v > 9.0 {
        v := 9.0;
      }
    } else if motor == 'C' {
      k := MotorC;
      if v > 18.0 {
        v := 18.0;
      }
    } else if motor == 'D' {
      k := MotorD;
    } else {
      return;  // unknown motor: this token only
    }
    assert ParseToken(t, scan) == Assign(k, v, enable);
    ax.SetMotorTarget(k, v);
    if enable {
      ax.Arm(k);
    }
  }

  /** The strtok loop over one line: every comma-separated token, in order. */
  method ApplyTokens(ax: Axes, line: string, scan: string -> Option<real>)
    requires ax.Valid()
    modifies ax`targets, ax.motors
    ensures ax.Valid()
    ensures ax.Snapshot() == TokensApplied(old(ax.Snapshot()), Tokens(line, Comma), scan)
  {
    var toks := Tokens(line, Comma);
    ghost var start := ax.Snapshot();
    for i := 0 to |toks|
      invariant ax.Valid()
      invariant ax.Snapshot() == TokensApplied(start, toks[..i], scan)
    {
      ApplyToken(ax, toks[i], scan);
      assert toks[..i + 1][..i] == toks[..i];
    }
    assert toks[..|toks|] == toks;
  }

  /** The "$" command: arm all four axes, show them, and let the sequence run. */
  method ArmAllCommand(ax: Axes, fl: Flags)
    requires ax.Valid()
    modifies ax.motors, fl`printFlag, fl`processContinue
    ensures ax.Valid()
    ensures ax.Snapshot() == AllArmed(old(ax.Snapshot()))
    ensures fl.printFlag == 1 && fl.processContinue == 1
  {
    ax.ArmAll();
    fl.printFlag := 1;
    fl.processContinue := 1;
  }

  /**
   * One line read by console_task. atoi and scan stand for the C library's
   * conversions; writeOk, periodOk and dutyOk are the outcomes of the sysfs
   * writes a PWM command issues.
   */
  method ConsoleLine(ax: Axes, fl: Flags, pwm: Pwm.Pwm, raw: string,
                     atoi: string -> int, scan: string -> Option<real>,
                     writeOk: bool, periodOk: bool, dutyOk: bool)
    requires ax.Valid() && pwm.Valid()
    modifies ax`targets, ax.motors, fl`printFlag, fl`processContinue, pwm
    ensures ax.Valid() && pwm.Valid() && fl.finish == old(fl.finish)
    ensures match Classify(FirstLine(raw))
      case Show =>
        ax.Snapshot() == old(ax.Snapshot()) && unchanged(pwm)
        && fl.printFlag == 1 && fl.processContinue == old(fl.processContinue)
      case Duty(arg) =>
        ax.Snapshot() == old(ax.Snapshot()) && unchanged(fl)
        && pwm.periodNs == old(pwm.periodNs)
        && pwm.dutyPercent == (if writeOk then Pwm.ClampPercent(atoi(arg)) else old(pwm.dutyPercent))
        && pwm.log == old(pwm.log) + [Pwm.Echo(Pwm.DutyCycle, Pwm.DutyNsAsWritten(pwm.periodNs, Pwm.ClampPercent(atoi(arg))))]
      case Freq(arg) =>
        ax.Snapshot() == old(ax.Snapshot()) && unchanged(fl)
        && pwm.dutyPercent == old(pwm.dutyPercent)
        && pwm.periodNs == (if periodOk then Pwm.PeriodNs(Pwm.ClampFreq(atoi(arg))) else old(pwm.periodNs))
        && pwm.log == old(pwm.log) + Pwm.FrequencyEchoes(Pwm.PeriodNs(Pwm.ClampFreq(atoi(arg))),
             Pwm.DutyNsAsWritten(Pwm.PeriodNs(Pwm.ClampFreq(atoi(arg))), pwm.dutyPercent), periodOk, dutyOk)
      case Status =>
        ax.Snapshot() == old(ax.Snapshot()) && unchanged(fl) && unchanged(pwm)
      case ArmAll =>
        ax.Snapshot() == AllArmed(old(ax.Snapshot())) && unchanged(pwm)
        && fl.printFlag == 1 && fl.processContinue == 1
      case Targets =>
        ax.Snapshot() == TokensApplied(old(ax.Snapshot()), Tokens(FirstLine(raw), Comma), scan)
        && unchanged(pwm) && fl.printFlag == 1 && fl.processContinue == old(fl.processContinue)
  {
    var n := TokenLen(raw, {'\n'});
    var input := raw[..n];
    if input == "@" {
      fl.printFlag := 1;
      return;
    }
    if Prefixed(input, 'P') {
      var r := pwm.SetDutyCycle(atoi(input[2..]), writeOk);
      return;
    }
    if Prefixed(input, 'F') {
      var r := pwm.SetFrequency(atoi(input[2..]), periodOk, dutyOk);
      return;
    }
    if input == "PWM" {
      var freqHz, period, pct, dutyNs := pwm.GetStatus();
      return;
    }
    if input == "$" {
      ArmAllCommand(ax, fl);
      return;
    }
    ApplyTokens(ax, input, scan);
    fl.printFlag := 1;
  }

  // ---------------------------------------------------------------------
  // The process task

  /** The launch of a sequence step: A, B and C are enabled and their Process_Flag raised; D is not touched. */
  function Launched(ts: Table): (r: Table)
    requires WellFormed(ts)
    ensures WellFormed(r)
  {
    Table(ts.targets, seq(AxisCount, k requires 0 <= k < AxisCount =>
      if k < 3 then ts.axes[k].(en := Enable, processFlag := 1) else ts.axes[k]))
  }

  /** Have A, B and C all reported State == 1? */
  predicate ABCDone(ts: Table)
    requires WellFormed(ts)
  {
    ts.axes[MotorA].state == 1 && ts.axes[MotorB].state == 1 && ts.axes[MotorC].state == 1
  }

  /** The table, cursor and Finish_flag one round of process_task leaves. */
  function Gated(ts: Table, cursor: int, cont: int, finish: int): (r: (Table, int, int))
    requires WellFormed(ts)
    ensures WellFormed(r.0)
  {
    var launched := if cont == 1 && finish == 1 then ScriptStep(Launched(ts), cursor) else (ts, cursor);
    var f := if cont == 1 && finish == 1 then 0 else finish;
    (launched.0, launched.1, if ABCDone(launched.0) then 1 else f)
  }

  /**
   * A launch while waypoints remain installs the next one, enables and
   * raises A, B and C, and clears every State, so Finish_flag stays 0
   * until the axes report back; D's enable and flag are left alone.
   */
  lemma LaunchAdvancesAndWaits(ts: Table, cursor: int)
    requires WellFormed(ts) && 0 <= cursor < |Waypoints|
    ensures var r := Gated(ts, cursor, 1, 1);
      && r.1 == cursor + 1 && r.2 == 0 && r.0.targets == Waypoints[cursor]
      && (forall k :: 0 <= k < 3 ==> r.0.axes[k].en == Enable && r.0.axes[k].processFlag == 1 && r.0.axes[k].state == 0)
      && r.0.axes[MotorD].en == ts.axes[MotorD].en && r.0.axes[MotorD].processFlag == ts.axes[MotorD].processFlag
  {
    ScriptStepMeaning(Launched(ts), cursor);
  }

  /** While a step is in flight nothing is launched; Finish_flag rises exactly when A, B and C are done, whatever D reports. */
  lemma InFlightWaitsForABC(ts: Table, cursor: int, cont: int)
    requires WellFormed(ts)
    ensures Gated(ts, cursor, cont, 0) == (ts, cursor, if ABCDone(ts) then 1 else 0)
    ensures forall s: Byte :: Gated(Table(ts.targets, ts.axes[MotorD := ts.axes[MotorD].(state := s)]), cursor, cont, 0).2
                              == Gated(ts, cursor, cont, 0).2
  {
  }

  /** Without "$" having been typed nothing is ever launched. */
  lemma NoLaunchWithoutContinue(ts: Table, cursor: int, cont: int, finish: int)
    requires WellFormed(ts) && cont != 1
    ensures Gated(ts, cursor, cont, finish).0 == ts && Gated(ts, cursor, cont, finish).1 == cursor
  {
  }

  /**
   * Once the six waypoints are used up, every round still re-raises A, B
   * and C while the cursor stays put: with Process_continue_flag never
   * cleared, the launch repeats each time they report done.
   */
  lemma ExhaustedSequenceKeepsRelaunching(ts: Table)
    requires WellFormed(ts)
    ensures var r := Gated(ts, |Waypoints|, 1, 1);
      && r.1 == |Waypoints| && r.0.targets == ts.targets
      && (forall k :: 0 <= k < 3 ==> r.0.axes[k].processFlag == 1 && r.0.axes[k].state == ts.axes[k].state)
      && (r.2 == 1 <==> ABCDone(ts))
  {
  }

  /** EN = Enable and Process_Flag = 1 on one record. */
  method Raise(m: Motor)
    modifies m
    ensures m.Value() == old(m.Value()).(en := Enable, processFlag := 1)
  {
    m.en := Enable;
    m.processFlag := 1;
  }

  /** The six assignments that open a sequence step. */
  method Launch(ax: Axes)
    requires ax.Valid()
    modifies ax.motors
    ensures ax.Valid()
    ensures ax.Snapshot() == Launched(old(ax.Snapshot()))
  {
    ghost var ts := ax.Snapshot();
    Raise(ax.motors[MotorA]);
    Raise(ax.motors[MotorB]);
    Raise(ax.motors[MotorC]);
    assert ax.Snapshot().axes == Launched(ts).axes;
  }

  /** One round of process_task. */
  method ProcessStep(ax: Axes, fl: Flags)
    requires ax.Valid()
    modifies ax`targets, ax`processCount, ax.motors, fl`finish
    ensures ax.Valid()
    ensures (ax.Snapshot(), ax.processCount, fl.finish)
      == Gated(old(ax.Snapshot()), old(ax.processCount), fl.processContinue, old(fl.finish))
  {
    ghost var ts, cursor := ax.Snapshot(), ax.processCount;
    if fl.processContinue == 1 && fl.finish == 1 {
      fl.finish := 0;
      Launch(ax);
      ax.MyMotorProcess();
      assert (ax.Snapshot(), ax.processCount) == ScriptStep(Launched(ts), cursor);
    }
    if ax.motors[MotorA].state == 1 && ax.motors[MotorB].state == 1 && ax.motors[MotorC].state == 1 {
      fl.finish := 1;
    }
  }
}

=== FILE: telegram.dfy ===
/**
 * The serial telegram layer (usart_me_Recive.c): a left-to-right scanner
 * for fields "X:<number>", each optionally armed by a '$' written
 * immediately before it, a bare "$" that arms every axis, and the
 * splitting of a receive buffer into CR/LF-separated lines.
 */
module Telegram {
  import opened MotorDefs
  import opened CStrings
  import opened Motor

  // ---------------------------------------------------------------------
  // Numbers: digits with an optional decimal point

  predicate IsDigit(c: char)
  {
    '0' <= c <= '9'
  }

  /** The characters the number loop accepts. */
  predicate IsNumberChar(c: char)
  {
    IsDigit(c) || c == '.'
  }

  function Digit(c: char): nat
    requires IsDigit(c)
  {
    c as int - '0' as int
  }

  /** 10^-k */
  function Tenth(k: nat): (r: real)
    ensures r > 0.0
  {
    if k == 0 then 1.0 else Tenth(k - 1) / 10.0
  }

  predicate AllDigits(ds: string)
  {
    forall i :: 0 <= i < |ds| ==> IsDigit(ds[i])
  }

  predicate AllNumberChars(t: string)
  {
    forall i :: 0 <= i < |t| ==> IsNumberChar(t[i])
  }

  /** The integer part: the digits before the first '.'. */
  function IntDigits(t: string): (r: string)
    ensures AllNumberChars(t) ==> AllDigits(r)
  {
    if t == [] then []
    else
      var p, c := t[..|t| - 1], t[|t| - 1];
      if '.' in p || c == '.' then IntDigits(p) else IntDigits(p) + [c]
  }

  /** The fraction part: the digits after the first '.', any later '.' dropped. */
  function FracDigits(t: string): (r: string)
    ensures AllNumberChars(t) ==> AllDigits(r)
  {
    if t == [] then []
    else
      var p, c := t[..|t| - 1], t[|t| - 1];
      if '.' in p && c != '.' then FracDigits(p) + [c] else FracDigits(p)
  }

  /** The digits of t, dots dropped. */
  function DigitsOnly(t: string): (r: string)
    ensures AllNumberChars(t) ==> AllDigits(r)
  {
    if t == [] then []
    else
      var p, c := t[..|t| - 1], t[|t| - 1];
      if c == '.' then DigitsOnly(p) else DigitsOnly(p) + [c]
  }

  /** Decimal value of a digit string. */
  function DigitsValue(ds: string): nat
    requires AllDigits(ds)
  {
    if ds == [] then 0 else DigitsValue(ds[..|ds| - 1]) * 10 + Digit(ds[|ds| - 1])
  }

  /** Value of the digit string ds read as 0.ds */
  function FracValue(ds: string): real
    requires AllDigits(ds)
  {
    if ds == [] then 0.0 else FracValue(ds[..|ds| - 1]) + PlaceValue(Digit(ds[|ds| - 1]), |ds|)
  }

  /** The value of digit d at the k-th place after the point. */
  function PlaceValue(d: nat, k: nat): real
  {
    d as real * Tenth(k)
  }

  /** The value the scanner gives to a run of number characters. */
  function NumberValue(t: string): real
    requires AllNumberChars(t)
  {
    DigitsValue(IntDigits(t)) as real + FracValue(FracDigits(t))
  }

  /** Without a point, every character is an integer digit. */
  lemma {:induction false} NoPointMeaning(t: string)
    requires '.' !in t
    ensures IntDigits(t) == t && FracDigits(t) == []
  {
    if t != [] {
      NoPointMeaning(t[..|t| - 1]);
      assert t[..|t| - 1] + [t[|t| - 1]] == t;
    }
  }

  /** With a first point, the integer part is what precedes it and the fraction is every digit after it. */
  lemma {:induction false} PointMeaning(a: string, b: string)
    requires '.' !in a
    ensures IntDigits(a + ['.'] + b) == a
    ensures FracDigits(a + ['.'] + b) == DigitsOnly(b)
    decreases |b|
  {
    var t := a + ['.'] + b;
    if b == [] {
      NoPointMeaning(a);
      assert t[..|t| - 1] == a;
    } else {
      var b', c := b[..|b| - 1], b[|b| - 1];
      var p := a + ['.'] + b';
      PointMeaning(a, b');
      assert t == p + [c] && b == b' + [c];
      assert '.' in p by { assert p[|a|] == '.'; }
      SnocDigits(p, c);
      SnocDigits(b', c);
    }
  }

  /** The three digit views gain at most the one appended character. */
  lemma SnocDigits(p: string, c: char)
    ensures IntDigits(p + [c]) == if '.' in p || c == '.' then IntDigits(p) else IntDigits(p) + [c]
    ensures FracDigits(p + [c]) == if '.' in p && c != '.' then FracDigits(p) + [c] else FracDigits(p)
    ensures DigitsOnly(p + [c]) == if c == '.' then DigitsOnly(p) else DigitsOnly(p) + [c]
  {
    assert (p + [c])[..|p|] == p;
  }

  /** The fraction never reaches 1: 0.ds <= 1 - 10^-|ds|. */
  lemma {:induction false} FracValueBound(ds: string)
    requires AllDigits(ds)
    ensures 0.0 <= FracValue(ds) <= 1.0 - Tenth(|ds|)
  {
    if ds != [] {
      var init := ds[..|ds| - 1];
      assert AllDigits(init);
      FracValueBound(init);
      var d, k := Digit(ds[|ds| - 1]), |ds|;
      PlaceValueBound(d, k);
      assert FracValue(ds) == FracValue(init) + PlaceValue(d, k);
    }
  }

  /** A digit's contribution at place k is at most 9 * 10^-k, a tenth of 10^-(k-1). */
  lemma PlaceValueBound(d: nat, k: nat)
    requires d <= 9 && k >= 1
    ensures 0.0 <= PlaceValue(d, k) <= 9.0 * Tenth(k)
    ensures Tenth(k) * 10.0 == Tenth(k - 1)
  {
    assert (9.0 - d as real) * Tenth(k) >= 0.0;
  }

  /** So the integer digits are exactly the floor of the value, and later digits only refine the fraction. */
  lemma NumberFloor(t: string)
    requires AllNumberChars(t)
    ensures NumberValue(t).Floor == DigitsValue(IntDigits(t))
  {
    FracValueBound(FracDigits(t));
  }

  /** "8.5" reads as 8.5: integer digits, then tenths. */
  lemma NumberExamplePoint(x: char, y: char)
    requires x == '8' && y == '5'
    ensures AllNumberChars([x, '.', y]) && NumberValue([x, '.', y]) == 8.5
  {
    var t := [x, '.', y];
    assert t == [x] + ['.'] + [y];
    PointMeaning([x], [y]);
    SingleDigit(y);
    SingleDigit(x);
    assert Tenth(1) == 0.1;
  }

  /** One digit: its own digit string, its value, and its tenth. */
  lemma SingleDigit(c: char)
    requires IsDigit(c)
    ensures DigitsOnly([c]) == [c] && DigitsValue([c]) == Digit(c)
    ensures FracValue([c]) == Digit(c) as real * Tenth(1)
  {
    assert [c][..0] == [];
  }

  /** A later '.' is ignored: "1.2.5" reads as 1.25. */
  lemma NumberExampleSecondPoint(x: char, y: char, z: char)
    requires x == '1' && y == '2' && z == '5'
    ensures AllNumberChars([x, '.', y, '.', z]) && NumberValue([x, '.', y, '.', z]) == 1.25
  {
    var t, b := [x, '.', y, '.', z], [y, '.', z];
    assert t == [x] + ['.'] + b;
    PointMeaning([x], b);
    SingleDigit(x);
    SingleDigit(y);
    assert b[..2] == [y, '.'] && [y, '.'][..1] == [y];
    assert DigitsOnly([y, '.']) == [y];
    assert DigitsOnly(b) == [y, z];
    assert [y, z][..1] == [y];
    assert FracValue([y, z]) == 0.2 + 5.0 * Tenth(2);
    assert Tenth(2) == 0.01;
  }

  /** No digits read as 0, and a lone digit as itself. */
  lemma NumberExampleDigits()
    ensures NumberValue("") == 0.0
    ensures NumberValue("3") == 3.0
  {
    NoPointMeaning("3");
    SingleDigit('3');
  }

  /** Appending one character to the number text: the step the number loop takes. */
  lemma AppendStep(t: string, c: char)
    requires AllNumberChars(t) && IsNumberChar(c)
    ensures AllNumberChars(t + [c])
    ensures ('.' in t + [c]) == ('.' in t || c == '.')
    ensures (t + [c])[..|t|] == t
    ensures '.' !in t && c != '.' ==> IntDigits(t + [c]) == IntDigits(t) + [c] && FracDigits(t + [c]) == []
    ensures '.' in t && c != '.' ==> IntDigits(t + [c]) == IntDigits(t) && FracDigits(t + [c]) == FracDigits(t) + [c]
    ensures c == '.' ==> IntDigits(t + [c]) == IntDigits(t) && FracDigits(t + [c]) == FracDigits(t)
  {
    assert (t + [c])[..|t|] == t;
    assert (t + [c])[|t|] == c;
    SnocDigits(t, c);
    if '.' !in t {
      NoPointMeaning(t);
    }
  }

  // ---------------------------------------------------------------------
  // Fields

  /** One recognised field: the axis (A = 0 .. D = 3), its value, and whether a '$' preceded it. */
  datatype Field = Field(axis: nat, value: real, armed: bool)

  predicate IsAxisLetter(c: char)
  {
    c == 'A' || c == 'B' || c == 'C' || c == 'D'
  }

  function AxisOf(c: char): (k: nat)
    requires IsAxisLetter(c)
    ensures k < AxisCount
  {
    c as int - 'A' as int
  }

  /** Length of the run of number characters starting at i. */
  function NumberLen(s: string, i: nat): (n: nat)
    ensures i <= |s| ==> i + n <= |s|
    ensures i > |s| ==> n == 0
    ensures forall j :: i <= j < i + n ==> IsNumberChar(At(s, j))
    ensures !IsNumberChar(At(s, i + n))
    decreases |s| - i
  {
    if IsNumberChar(At(s, i)) then 1 + NumberLen(s, i + 1) else 0
  }

  /** The run length is the only n with n number characters from i and none at i + n. */
  lemma {:induction false} NumberLenOfRun(s: string, i: nat, n: nat)
    requires forall j :: i <= j < i + n ==> IsNumberChar(At(s, j))
    requires !IsNumberChar(At(s, i + n))
    ensures NumberLen(s, i) == n
    decreases n
  {
    if n > 0 {
      NumberLenOfRun(s, i + 1, n - 1);
    }
  }

  /** A field "X:" starts at j. */
  predicate FieldAt(s: string, j: nat)
  {
    IsAxisLetter(At(s, j)) && At(s, j + 1) == ':'
  }

  /** The fields the scanner recognises from index i on, each with the position it resumes at. */
  function FieldsFrom(s: string, i: nat): seq<Field>
    decreases |s| + 1 - i
  {
    if i >= |s| then []
    else
      var armed := s[i] == '$';
      var j := if armed then i + 1 else i;
      if FieldAt(s, j) then
        var n := NumberLen(s, j + 2);
        var t := s[j + 2..j + 2 + n];
        assert AllNumberChars(t) by {
          forall k | 0 <= k < |t| ensures IsNumberChar(t[k]) {
            assert t[k] == At(s, j + 2 + k);
          }
        }
        [Field(AxisOf(At(s, j)), NumberValue(t), armed)] + FieldsFrom(s, j + 2 + n)
      else
        FieldsFrom(s, j + 1)
  }

  /** One step of the scan from i that finds a field at j (just after a '$', or at i): the field, then the rest after its number. */
  lemma FieldStepAt(s: string, i: nat, j: nat)
    requires i < |s| && j == (if s[i] == '$' then i + 1 else i) && FieldAt(s, j)
    ensures var e := j + 2 + NumberLen(s, j + 2);
      && e <= |s| && AllNumberChars(s[j + 2..e])
      && FieldsFrom(s, i) == [Field(AxisOf(At(s, j)), NumberValue(s[j + 2..e]), s[i] == '$')] + FieldsFrom(s, e)
  {
    var e := j + 2 + NumberLen(s, j + 2);
    var t := s[j + 2..e];
    forall k | 0 <= k < |t| ensures IsNumberChar(t[k]) {
      assert t[k] == At(s, j + 2 + k);
    }
  }

  /** One step of the scan from i that finds no field at j: the scan resumes after j. */
  lemma SkipStepAt(s: string, i: nat, j: nat)
    requires i < |s| && j == (if s[i] == '$' then i + 1 else i) && !FieldAt(s, j)
    ensures FieldsFrom(s, i) == FieldsFrom(s, j + 1)
  {
  }

  /** The whole-line fields. */
  function Fields(s: string): seq<Field>
  {
    FieldsFrom(s, 0)
  }

  /** A line without '$' yields only unarmed fields. */
  lemma {:induction false} NoDollarNoArming(s: string, i: nat)
    requires '$' !in s
    ensures forall f :: f in FieldsFrom(s, i) ==> !f.armed
    decreases |s| + 1 - i
  {
    if i < |s| {
      assert s[i] != '$';
      if FieldAt(s, i) {
        NoDollarNoArming(s, i + 2 + NumberLen(s, i + 2));
      } else {
        NoDollarNoArming(s, i + 1);
      }
    }
  }

  /** Every field names one of the four axes. */
  lemma {:induction false} FieldsNameAxes(s: string, i: nat)
    ensures forall f :: f in FieldsFrom(s, i) ==> f.axis < AxisCount
    decreases |s| + 1 - i
  {
    if i < |s| {
      var j := if s[i] == '$' then i + 1 else i;
      if FieldAt(s, j) {
        FieldsNameAxes(s, j + 2 + NumberLen(s, j + 2));
      } else {
        FieldsNameAxes(s, j + 1);
      }
    }
  }

  /** Skipping: a character that starts no field is passed over, and a '$' not followed by a field also passes over the character after it. */
  lemma SkipRules(s: string, i: nat)
    requires i < |s|
    ensures s[i] != '$' && !FieldAt(s, i) ==> FieldsFrom(s, i) == FieldsFrom(s, i + 1)
    ensures s[i] == '$' && !FieldAt(s, i + 1) ==> FieldsFrom(s, i) == FieldsFrom(s, i + 2)
  {
  }

  /** "A:8.5$B:3": A set to 8.5 unarmed, B set to 3 armed. */
  lemma FieldExampleMixed()
    ensures Fields("A:8.5$B:3") == [Field(0, 8.5, false), Field(1, 3.0, true)]
  {
    var s := "A:8.5$B:3";
    MixedTail(s);
    MixedHead(s);
  }

  /** A field whose number is one digit and ends the line is the last field, worth that digit. */
  lemma DigitFieldAtEnd(s: string, i: nat, j: nat)
    requires i < |s| && j == (if s[i] == '$' then i + 1 else i) && FieldAt(s, j)
    requires |s| == j + 3 && IsDigit(s[j + 2])
    ensures FieldsFrom(s, i) == [Field(AxisOf(s[j]), Digit(s[j + 2]) as real, s[i] == '$')]
  {
    FieldStepAt(s, i, j);
    NumberLenOfRun(s, j + 2, 1);
    assert s[j + 2..j + 3] == [s[j + 2]];
    NoPointMeaning([s[j + 2]]);
    SingleDigit(s[j + 2]);
  }

  /** The armed tail "$B:3" of the mixed example, stated on its characters. */
  lemma MixedTail(s: string)
    requires |s| == 9 && s[5] == '$' && s[6] == 'B' && s[7] == ':' && s[8] == '3'
    ensures FieldsFrom(s, 5) == [Field(1, 3.0, true)]
  {
    DigitFieldAtEnd(s, 5, 6);
  }

  /** The unarmed head "A:8.5" of the mixed example, stated on its characters. */
  lemma MixedHead(s: string)
    requires |s| == 9 && s[0] == 'A' && s[1] == ':' && s[2] == '8' && s[3] == '.' && s[4] == '5' && s[5] == '$'
    ensures FieldsFrom(s, 0) == [Field(0, 8.5, false)] + FieldsFrom(s, 5)
  {
    FieldStepAt(s, 0, 0);
    NumberLenOfRun(s, 2, 3);
    assert s[2..5] == [s[2], '.', s[4]];
    NumberExamplePoint(s[2], s[4]);
  }

  /** "C:" with no digits sets C to 0. */
  lemma FieldExampleNoDigits()
    ensures Fields("C:") == [Field(2, 0.0, false)]
  {
    var c := "C:";
    assert NumberLen(c, 2) == 0;
    assert c[2..2] == "";
    NumberExampleDigits();
    assert FieldsFrom(c, 0) == [Field(2, 0.0, false)] + FieldsFrom(c, 2);
  }

  /** "$$A:5": the first '$' swallows the second, so the field is not armed. */
  lemma FieldExampleDoubleDollar(d: string)
    requires |d| == 5 && d[0] == '$' && d[1] == '$' && d[2] == 'A' && d[3] == ':' && d[4] == '5'
    ensures Fields(d) == [Field(0, 5.0, false)]
  {
    SkipStepAt(d, 0, 1);
    DigitFieldAtEnd(d, 2, 2);
  }

  /** An unknown letter starts no field. */
  lemma FieldExampleUnknownAxis()
    ensures Fields("E:1") == []
  {
    var e := "E:1";
    assert FieldsFrom(e, 2) == FieldsFrom(e, 3);
    assert FieldsFrom(e, 1) == FieldsFrom(e, 2);
    assert FieldsFrom(e, 0) == FieldsFrom(e, 1);
  }

  // ---------------------------------------------------------------------
  // Effect on the axes

  /** One field: the global target of its axis, and the arm flag if '$' preceded it. */
  function FieldApplied(ts: Table, f: Field): (r: Table)
    requires WellFormed(ts)
    ensures WellFormed(r)
  {
    if f.axis < AxisCount then
      var t := Table(ts.targets[f.axis := f.value], ts.axes);
      if f.armed then AxisArmed(t, f.axis) else t
    else ts
  }

  /** The fields applied in order. */
  function FieldsApplied(ts: Table, fs: seq<Field>): (r: Table)
    requires WellFormed(ts)
    ensures WellFormed(r)
  {
    if fs == [] then ts else FieldApplied(FieldsApplied(ts, fs[..|fs| - 1]), fs[|fs| - 1])
  }

  /** Parse_Motor_Targets on the table. */
  function Parsed(ts: Table, rx: string): (r: Table)
    requires WellFormed(ts)
    ensures WellFormed(r)
  {
    if |rx| == 1 && rx[0] == '$' then AllArmed(ts) else FieldsApplied(ts, Fields(rx))
  }

  /** A bare "$" arms all four axes and sets no target. */
  lemma DollarArmsAll(ts: Table)
    requires WellFormed(ts)
    ensures Parsed(ts, "$").targets == ts.targets
    ensures forall k :: 0 <= k < AxisCount ==> Parsed(ts, "$").axes[k] == Armed(ts.axes[k])
  {
  }

  /** Fields without '$' change only global targets: no record field of any axis. */
  lemma {:induction false} UnarmedFieldsKeepAxes(ts: Table, fs: seq<Field>)
    requires WellFormed(ts)
    requires forall f :: f in fs ==> !f.armed
    ensures FieldsApplied(ts, fs).axes == ts.axes
  {
    if fs != [] {
      UnarmedFieldsKeepAxes(ts, fs[..|fs| - 1]);
    }
  }

  /** The last field for an axis sets its target; an axis with no field keeps its target. */
  lemma {:induction false} LastFieldWins(ts: Table, fs: seq<Field>, k: nat)
    requires WellFormed(ts) && k < AxisCount
    ensures (forall i :: 0 <= i < |fs| ==> fs[i].axis != k) ==> FieldsApplied(ts, fs).targets[k] == ts.targets[k]
    ensures forall i :: 0 <= i < |fs| && fs[i].axis == k && (forall j :: i < j < |fs| ==> fs[j].axis != k) ==>
      FieldsApplied(ts, fs).targets[k] == fs[i].value
  {
    if fs != [] {
      var p, f := fs[..|fs| - 1], fs[|fs| - 1];
      LastFieldWins(ts, p, k);
      FieldAppliedTarget(FieldsApplied(ts, p), f, k);
      assert forall i :: 0 <= i < |p| ==> p[i] == fs[i];
    }
  }

  /** One field changes the target of its own axis only. */
  lemma FieldAppliedTarget(ts: Table, f: Field, k: nat)
    requires WellFormed(ts) && k < AxisCount
    ensures FieldApplied(ts, f).targets[k] == if f.axis == k then f.value else ts.targets[k]
  {
  }

  /** An axis ends armed exactly when some field for it carried '$'; otherwise its record is untouched. */
  lemma {:induction false} ArmedIffDollarField(ts: Table, fs: seq<Field>, k: nat)
    requires WellFormed(ts) && k < AxisCount
    ensures FieldsApplied(ts, fs).axes[k] ==
      if exists i :: 0 <= i < |fs| && fs[i].axis == k && fs[i].armed then Armed(ts.axes[k]) else ts.axes[k]
  {
    if fs != [] {
      var p := fs[..|fs| - 1];
      ArmedIffDollarField(ts, p, k);
      if exists i :: 0 <= i < |p| && p[i].axis == k && p[i].armed {
        var i :| 0 <= i < |p| && p[i].axis == k && p[i].armed;
        assert fs[i] == p[i];
      }
      if exists i :: 0 <= i < |fs| && fs[i].axis == k && fs[i].armed {
        var i :| 0 <= i < |fs| && fs[i].axis == k && fs[i].armed;
        if i < |p| {
          assert p[i] == fs[i];
        }
      }
    }
  }

  /** "A:8.5$B:3" sets A to 8.5 and B to 3, and arms only B. */
  lemma TelegramExample(ts: Table)
    requires WellFormed(ts)
    ensures var r := Parsed(ts, "A:8.5$B:3");
      && r.targets == ts.targets[0 := 8.5][1 := 3.0]
      && r.axes == ts.axes[1 := Armed(ts.axes[1])]
  {
    FieldExampleMixed();
    var fs := [Field(0, 8.5, false), Field(1, 3.0, true)];
    assert fs[..1] == [fs[0]];
    assert [fs[0]][..0] == [];
    assert FieldsApplied(ts, [fs[0]]) == FieldApplied(ts, fs[0]);
    assert FieldsApplied(ts, fs) == FieldApplied(FieldApplied(ts, fs[0]), fs[1]);
  }

  // ---------------------------------------------------------------------
  // The scanner and the line splitter

  /** What one more character does to the value: a '.' changes nothing, a digit before the point shifts, a digit after it adds the next tenth. */
  lemma ScanStep(t: string, c: char)
    requires AllNumberChars(t) && IsNumberChar(c)
    ensures AllNumberChars(t + [c]) && ('.' in t + [c]) == ('.' in t || c == '.')
    ensures c == '.' ==> NumberValue(t + [c]) == NumberValue(t) && FracDigits(t + [c]) == FracDigits(t)
    ensures c != '.' && '.' !in t ==>
      NumberValue(t + [c]) == NumberValue(t) * 10.0 + Digit(c) as real && FracDigits(t + [c]) == []
    ensures c != '.' && '.' in t ==>
      NumberValue(t + [c]) == NumberValue(t) + PlaceValue(Digit(c), |FracDigits(t)| + 1)
      && |FracDigits(t + [c])| == |FracDigits(t)| + 1
  {
    AppendStep(t, c);
    if c != '.' {
      if '.' !in t {
        IntegerDigitStep(t, c);
      } else {
        FractionDigitStep(t, c);
      }
    }
  }

  lemma IntegerDigitStep(t: string, c: char)
    requires AllNumberChars(t) && IsDigit(c) && '.' !in t
    ensures AllNumberChars(t + [c])
    ensures NumberValue(t + [c]) == NumberValue(t) * 10.0 + Digit(c) as real
  {
    AppendStep(t, c);
    NoPointMeaning(t);
    var x := IntDigits(t);
    var z := x + [c];
    assert z[..|z| - 1] == x && z[|z| - 1] == c;
  }

  lemma FracAppend(y: string, c: char)
    requires AllDigits(y) && IsDigit(c)
    ensures AllDigits(y + [c])
    ensures FracValue(y + [c]) == FracValue(y) + PlaceValue(Digit(c), |y| + 1)
  {
    var z := y + [c];
    assert z[..|z| - 1] == y && z[|z| - 1] == c;
  }

  lemma FractionDigitStep(t: string, c: char)
    requires AllNumberChars(t) && IsDigit(c) && '.' in t
    ensures AllNumberChars(t + [c])
    ensures NumberValue(t + [c]) == NumberValue(t) + PlaceValue(Digit(c), |FracDigits(t)| + 1)
  {
    AppendStep(t, c);
    var x, y := IntDigits(t), FracDigits(t);
    var u := t + [c];
    assert IntDigits(u) == x && FracDigits(u) == y + [c];
    FracAppend(y, c);
    assert NumberValue(t) == DigitsValue(x) as real + FracValue(y);
    assert NumberValue(u) == DigitsValue(x) as real + FracValue(y + [c]);
  }

  lemma SliceExtend(s: string, lo: nat, i: nat)
    requires lo <= i < |s|
    ensures s[lo..i + 1] == s[lo..i] + [s[i]]
  {
  }

  /** With frac holding 10^-k, d * frac is the place value of d, and frac * 0.1 is 10^-(k+1). */
  lemma PlaceValueOfTenth(d: nat, k: nat, frac: real)
    requires frac == Tenth(k)
    ensures d as real * frac == PlaceValue(d, k)
    ensures frac * 0.1 == Tenth(k + 1)
  {
  }

  /**
   * The number loop of Parse_Motor_Targets: from i, accumulate digits as
   * val * 10 + d until the first '.', then add d * 10^-k for the k-th digit
   * after it; stop at the first character that is neither.
   */
  method ScanNumber(rx: string, start: nat) returns (val: real, i: nat)
    requires start <= |rx|
    ensures i == start + NumberLen(rx, start) && i <= |rx|
    ensures AllNumberChars(rx[start..i]) && val == NumberValue(rx[start..i])
  {
    i := start;
    val := 0.0;
    var frac := 0.1;
    var point := false;
    assert rx[start..i] == [];
    while IsNumberChar(At(rx, i))
      invariant start <= i <= start + NumberLen(rx, start)
      invariant AllNumberChars(rx[start..i])
      invariant Scanned(rx[start..i], val, frac, point)
      decreases |rx| - i
    {
      ghost var t := rx[start..i];
      var c := rx[i];
      val, frac, point := ScanChar(val, frac, point, c, t);
      SliceExtend(rx, start, i);
      i := i + 1;
    }
  }

  /** The state of the number loop after reading t: the point flag, the value so far, and the weight of the next fraction digit. */
  predicate Scanned(t: string, val: real, frac: real, point: bool)
  {
    && AllNumberChars(t)
    && point == ('.' in t)
    && (!point ==> FracDigits(t) == [])
    && val == NumberValue(t)
    && frac == Tenth(|FracDigits(t)| + 1)
  }

  /** The body of the number loop for one character c. */
  method ScanChar(val: real, frac: real, point: bool, c: char, ghost t: string) returns (val': real, frac': real, point': bool)
    requires Scanned(t, val, frac, point) && IsNumberChar(c)
    ensures Scanned(t + [c], val', frac', point')
  {
    ScanStep(t, c);
    val', frac', point' := val, frac, point;
    if c == '.' {
      point' := true;
    } else if !point {
      val' := val * 10.0 + Digit(c) as real;
    } else {
      PlaceValueOfTenth(Digit(c), |FracDigits(t)| + 1, frac);
      val' := val + Digit(c) as real * frac;
      frac' := frac * 0.1;
    }
  }

  /** The end of one field: store the value in Target_Circle_X and arm axis X if '$' preceded it. */
  method StoreField(ax: Axes, k: nat, val: real, hasDollar: bool)
    requires ax.Valid() && k < AxisCount
    modifies ax`targets, ax.motors
    ensures ax.Valid()
    ensures ax.Snapshot() == FieldApplied(old(ax.Snapshot()), Field(k, val, hasDollar))
  {
    ax.targets := ax.targets[k := val];
    if hasDollar {
      ax.Arm(k);
    }
  }

  /** Applying fields is a left fold: two batches in a row are one batch. */
  lemma {:induction false} FieldsAppliedConcat(ts: Table, a: seq<Field>, b: seq<Field>)
    requires WellFormed(ts)
    ensures FieldsApplied(ts, a + b) == FieldsApplied(FieldsApplied(ts, a), b)
    decreases |b|
  {
    if b == [] {
      assert a + b == a;
    } else {
      var b' := b[..|b| - 1];
      FieldsAppliedConcat(ts, a, b');
      assert (a + b)[..|a + b| - 1] == a + b';
      assert (a + b)[|a + b| - 1] == b[|b| - 1];
    }
  }

  /** A field whose letter sits at j: scan its number from j + 2 and store it. */
  method ScanField(ax: Axes, rx: string, j: nat, hasDollar: bool) returns (e: nat, ghost f: Field)
    requires ax.Valid() && FieldAt(rx, j)
    modifies ax`targets, ax.motors
    ensures ax.Valid()
    ensures e == j + 2 + NumberLen(rx, j + 2) && e <= |rx| && AllNumberChars(rx[j + 2..e])
    ensures f == Field(AxisOf(At(rx, j)), NumberValue(rx[j + 2..e]), hasDollar)
    ensures ax.Snapshot() == FieldApplied(old(ax.Snapshot()), f)
  {
    var id := At(rx, j);
    var val;
    val, e := ScanNumber(rx, j + 2);
    StoreField(ax, AxisOf(id), val, hasDollar);
    f := Field(AxisOf(id), val, hasDollar);
  }

  /**
   * One pass of the outer loop of Parse_Motor_Targets from index i: an
   * optional '$', then either a field, stored and possibly armed, or one
   * skipped character.
   */
  method ScanFrom(ax: Axes, rx: string, i: nat) returns (next: nat, ghost fs: seq<Field>)
    requires ax.Valid() && i < |rx|
    modifies ax`targets, ax.motors
    ensures ax.Valid()
    ensures i < next <= |rx| + 1
    ensures FieldsFrom(rx, i) == fs + FieldsFrom(rx, next)
    ensures ax.Snapshot() == FieldsApplied(old(ax.Snapshot()), fs)
  {
    next := i;
    var hasDollar := false;
    if rx[next] == '$' {
      hasDollar := true;
      next := next + 1;
    }
    ghost var j := next;
    if IsAxisLetter(At(rx, next)) && At(rx, next + 1) == ':' {
      ghost var f;
      next, f := ScanField(ax, rx, next, hasDollar);
      fs := [f];
      FieldStepAt(rx, i, j);
      assert FieldsApplied(old(ax.Snapshot()), fs) == FieldApplied(old(ax.Snapshot()), f) by {
        assert fs[..0] == [];
      }
    } else {
      next := next + 1;
      fs := [];
      SkipStepAt(rx, i, j);
    }
  }

  /**
   * Parse_Motor_Targets: scan rx left to right, writing Target_Circle_X for
   * every field and arming its axis when a '$' immediately preceded it; a
   * line that is exactly "$" arms every axis.
   */
  method ParseMotorTargets(ax: Axes, rx: string)
    requires ax.Valid() && IsCString(rx)
    modifies ax`targets, ax.motors
    ensures ax.Valid()
    ensures ax.Snapshot() == Parsed(old(ax.Snapshot()), rx)
  {
    var len := |rx|;
    if len == 1 && rx[0] == '$' {
      ax.ArmAll();
      return;
    }
    ScanLine(ax, rx);
  }

  /** The scanning loop of Parse_Motor_Targets: every field of rx, applied in order. */
  method ScanLine(ax: Axes, rx: string)
    requires ax.Valid() && IsCString(rx)
    modifies ax`targets, ax.motors
    ensures ax.Valid()
    ensures ax.Snapshot() == FieldsApplied(old(ax.Snapshot()), Fields(rx))
  {
    var len := |rx|;
    ghost var start := ax.Snapshot();
    ghost var done: seq<Field> := [];
    var i := 0;
    while i < len
      invariant 0 <= i <= len + 1
      invariant ax.Valid()
      invariant Fields(rx) == done + FieldsFrom(rx, i)
      invariant ax.Snapshot() == FieldsApplied(start, done)
      decreases len + 1 - i
    {
      ghost var fs;
      i, fs := ScanFrom(ax, rx, i);
      FieldsAppliedConcat(start, done, fs);
      AppendAssoc(done, fs, FieldsFrom(rx, i));
      done := done + fs;
    }
    assert done + FieldsFrom(rx, i) == done;
  }

  /** Parse_Motor_Targets applied to each line in order. */
  function LinesParsed(ts: Table, lines: seq<string>): (r: Table)
    requires WellFormed(ts)
    ensures WellFormed(r)
    decreases |lines|
  {
    if lines == [] then ts else LinesParsed(Parsed(ts, lines[0]), lines[1..])
  }

  /** Lines are handled in order: a buffer split at a line break is the first part, then the second. */
  lemma {:induction false} LinesParsedConcat(ts: Table, a: seq<string>, b: seq<string>)
    requires WellFormed(ts)
    ensures LinesParsed(ts, a + b) == LinesParsed(LinesParsed(ts, a), b)
    decreases |a|
  {
    if a == [] {
      assert a + b == b;
    } else {
      assert (a + b)[0] == a[0];
      assert (a + b)[1..] == a[1..] + b;
      LinesParsedConcat(Parsed(ts, a[0]), a[1..], b);
    }
  }

  const LineBreaks: set<char> := {'\r', '\n'}

  /** Two buffers joined by a line break are processed as the first, then the second. */
  lemma BufferSplitsAtBreak(ts: Table, a: string, d: char, b: string)
    requires WellFormed(ts) && d in LineBreaks
    ensures LinesParsed(ts, Tokens(a + [d] + b, LineBreaks)) ==
      LinesParsed(LinesParsed(ts, Tokens(a, LineBreaks)), Tokens(b, LineBreaks))
  {
    TokensOfJoin(a, d, b, LineBreaks);
    LinesParsedConcat(ts, Tokens(a, LineBreaks), Tokens(b, LineBreaks));
  }

  lemma AppendAssoc(a: seq<Field>, b: seq<Field>, c: seq<Field>)
    ensures a + (b + c) == (a + b) + c
  {
  }

  /** Process_Usart_Lines: every non-empty CR/LF-separated line of buf goes to the parser, in order. */
  method ProcessUsartLines(ax: Axes, buf: string)
    requires ax.Valid() && IsCString(buf)
    modifies ax`targets, ax.motors
    ensures ax.Valid()
    ensures ax.Snapshot() == LinesParsed(old(ax.Snapshot()), Tokens(buf, LineBreaks))
  {
    var lines := Tokens(buf, LineBreaks);
    TokensAreNonEmptyRuns(buf, LineBreaks);
    TokensOfCString(buf, LineBreaks);
    ghost var start := ax.Snapshot();
    for n := 0 to |lines|
      invariant ax.Valid()
      invariant LinesParsed(start, lines) == LinesParsed(ax.Snapshot(), lines[n..])
    {
      var line := lines[n];
      assert line in lines;
      assert IsCString(line);
      if |line| > 0 {
        assert lines[n..] == [line] + lines[n + 1..];
        ParseMotorTargets(ax, line);
      }
    }
  }
}
